=== FILE: README.md ===
# Property-marketplace admin console: session, access gating and view logic

This project models, in Dafny, the logic underneath a React/antd console in which investors,
landowners and scouts browse and manage property listings. The model has three parts:

- **Client session and access gating.**
  - The browser storage is two keys, `token` and `userType`.
  - `ProtectedRoute` decides between "render" and "redirect to /login", and it guards a fixed route table.
  - Three kinds of HTTP client attach `Authorization: Bearer <token>`. Two of them also handle a 401.
  - Some call sites build the header themselves.
  - Login, logout, `signOut` and the 401 handler change the session.
- **View validators and helpers.** These cover:
  - the password and confirmation rules;
  - the product search and location filters;
  - text truncation and status colours;
  - required investment;
  - image selection and desired-amenity matching;
  - the first-match attribute lookup with the two views' fallbacks;
  - the image MIME check and the keep-last-file rule;
  - serialising forms into `FormData` entries;
  - the sign-up payload and its birth-date format.
- **Role dispatch.**
  - The dashboard fetch depends on the role.
  - So do the landowner-only buttons and the "Amentics" menu item.

Every handler is a pure function that returns an ordered list of effects: storage writes,
requests with the `Authorization` header they carry, notices, navigations, spinner changes and
callbacks. The session a handler leaves behind is the replay of its storage effects
(`Effects.Replay`). Server answers, object URLs and file reads are parameters.

Modules, one per file: `Js` (JavaScript truthiness, `||`, template printing), `Text`, `Decimal`,
`Lists`, `Session`, `Effects`, `Http`, `Services`, `Guard`, `Routes`, `Attributes`, `Login`,
`Layout`, `Marketplace`, `Dashboard`, `Signup`, `FormData`, `AddProperty`, `Profile`, `Upload`.

Two facts about the code are worth knowing up front:
- The 401 handler and logout remove only `token`; `userType` stays in storage.
- The route table admits INVESTOR to /amentics and /addmarketplace, although the comments above those routes say landowners only.

## Model

| member | source | states |
|---|---|---|
| Session.Apply | src/service/authService.ts:10-13 | a storage write or removal changes exactly the named key; every other key reads as before |
| Session.SetAuthToken | src/service/authService.ts:11 | after `setAuthToken(t)`, `getAuthToken()` returns `t` and `userType` is untouched |
| Session.ClearAuthToken | src/service/authService.ts:13 | after `clearAuthToken()` no token is stored and `userType` is untouched |
| Session.ClearIdempotent | src/service/authService.ts:13 | clearing the token twice is clearing it once |
| Session.ClearAfterSet | src/service/authService.ts:11-13 | clearing after setting leaves what clearing alone leaves |
| Js.Or | src/component/MainLayout/ProtectedRoute.tsx:20 | `s \|\| fallback` gives the string when it is truthy (present and non-empty), the fallback otherwise |
| Js.Interpolate | src/service/productService.ts:74 | a template literal prints a missing storage value as "null" |
| Effects.Replay | src/service/authService.ts:10-13 | the session a handler leaves is its storage effects applied in order; a list without storage effects leaves the session unchanged (composition and untouched keys are in Effects.ReplayAppend and Effects.ReplayKeepsUntouched) |
| Effects.ReplayAppend | src/views/login/index.tsx:14-51 | the session after two effect lists in a row is the replay of the second from the session the first leaves |
| Effects.ReplayKeepsUntouched | src/component/MainLayout/index.tsx:49-61 | a key no effect writes or removes reads the same after the replay |
| Effects.ReplayWithoutStorage | src/service/authService.ts:42-48 | effects without storage writes leave the session unchanged |
| Http.AttachBearer | src/service/authService.ts:31-38 | the request interceptor adds `Authorization: Bearer <token>` exactly when the token is truthy and otherwise returns the headers unchanged |
| Http.PlainCallAuthorization | src/service/apiService.ts:16-23 | a call without its own header carries a bearer header if and only if the stored token is truthy |
| Http.ExplicitCallAuthorization | src/service/productService.ts:71-76 | a call that sets `Bearer ${token}` itself sends "Bearer null" when no token is stored and "Bearer " for an empty one, because the interceptor overrides only a truthy token |
| Http.HandleUnauthorized | src/service/authService.ts:16-22 | the 401 handler shows the session-expired error and schedules /login after 1000 ms |
| Http.UnauthorizedClearsToken | src/service/authService.ts:16-22 | the 401 handler leaves the session with no token and the same `userType` |
| Http.Intercept | src/service/apiService.ts:26-34 | the response interceptor acts exactly on a 401 reaching a client that has it, then schedules the delayed /login assignment, and never touches `userType` |
| Http.Invoke | src/service/apiService.ts:26-34 | the request goes out first; a 401 on a client with the response interceptor clears the token, schedules /login and is still rejected; any other answer passes through with no session effect; the client never routes, its only redirect being the delayed page assignment |
| Services.SignIn | src/service/authService.ts:52-53 | `login` posts to "/auth/signin", resolves to the body, rejects with the error, and a 401 clears the token |
| Services.SignUp | src/service/authService.ts:55-56 | `signup` posts to "/auth/signup", resolves to the body, rejects with the error, and a 401 clears the token |
| Services.VerifyToken | src/service/authService.ts:58-59 | `verifyToken` posts to "/auth/verify-token", resolves to the body, rejects with the error, and a 401 clears the token |
| Services.AuthCallsResolveToBody | src/service/authService.ts:52-59 | `login`, `signup` and `verifyToken` resolve to the response body and reject with the unchanged error |
| Services.SignOut | src/service/authService.ts:61-65 | the token is cleared and the page assigned to /login only after the sign-out post succeeds; a failure is rejected without either |
| Services.ApiService | src/service/apiService.ts:37-42 | every `apiService` method resolves to `res.data`; a 401 clears the token and is rejected; other failures are rejected with no session effect |
| Services.DeleteProductPath | src/service/productService.ts:45 | the delete path starts with "/product/delete/" and the id reads back from it |
| Services.FilterByPriceBody | src/service/productService.ts:50-55 | the price filter posts `min_price` and `max_price` as given |
| Services.OwnHeaderCall | src/service/productService.ts:69-155 | the call sends `Bearer ${token}` whatever is stored ("Bearer null" when nothing is); no answer changes the session; the body or the unchanged error comes back |
| Services.PlainCall | src/service/productService.ts:19-41 | both product clients attach the bearer header only for a truthy token, and a 401 does not clear the session |
| Services.RequestList | src/service/productService.ts:105-135 | the two request lists resolve to `data.requests` |
| Guard.Decide | src/component/MainLayout/ProtectedRoute.tsx:9-25 | the view renders exactly when the token is truthy and the role list is empty or holds the stored user type (missing is ""); every refusal goes to /login |
| Guard.NoTokenRedirects | src/component/MainLayout/ProtectedRoute.tsx:13-18 | a missing or empty token redirects to /login whatever the role list |
| Guard.EmptyRolesRenderAnyUserType | src/component/MainLayout/ProtectedRoute.tsx:11 | with a token and the default empty role list, any user type renders |
| Guard.RoleMembershipDecides | src/component/MainLayout/ProtectedRoute.tsx:20-24 | with a token and a non-empty list, the view renders if and only if the user type is an exact member of the list |
| Guard.MissingUserTypeIsEmpty | src/component/MainLayout/ProtectedRoute.tsx:20 | a missing user type renders if and only if "" is in the list |
| Guard.RefusalsShareTarget | src/component/MainLayout/ProtectedRoute.tsx:17-24 | the unauthenticated and the unauthorised refusal are the same redirect |
| Routes.Find | src/routes/index.tsx:17-90 | the route found has the requested path; none is found only when no route has it |
| Routes.Table | src/routes/index.tsx:17-90 | ten routes: the first three unguarded, the other seven guarded by the one role list |
| Routes.AppRoutes | src/routes/index.tsx:22-89 | every guarded route of the table as written admits "Scout" and not the sign-up spelling "SCOUT" |
| Routes.Navigate | src/routes/index.tsx:17-90 | nothing matches exactly when no route has the path; every redirect goes to /login (what a match shows is in Routes.Visit) |
| Routes.Visit | src/routes/index.tsx:22-89 | an unguarded route always shows its view; a guarded one shows it exactly when the guard renders, else redirects to /login |
| Routes.PublicRoutes | src/routes/index.tsx:18-20 | "/", "/login" and "/signup" are unguarded, and "/" and "/login" show the same view |
| Routes.ProtectedRoutesShareRoles | src/routes/index.tsx:22-89 | all seven guarded routes use the one list `["INVESTOR","LANDOWNER","Scout"]` |
| Routes.NoTokenNoProtectedView | src/routes/index.tsx:22-89 | without a token no guarded view is reachable |
| Routes.UppercaseScoutLockedOut | src/routes/index.tsx:25 | a user stored as "SCOUT", the value sign-up offers, is redirected from every guarded route |
| Routes.SignupRolesAdmittedWhenIntended | src/views/signup/index.tsx:204-206 | with the role list spelled as sign-up stores the roles, every sign-up role reaches every guarded route |
| Routes.InvestorReachesAmentics | src/routes/index.tsx:61-69 | a signed-in investor navigating to "/amentics" sees the amenities page despite the "only landowners" comment |
| Routes.InvestorReachesAddMarketplace | src/routes/index.tsx:41-49 | a signed-in investor navigating to "/addmarketplace" sees the add-property form despite the "only landowners" comment |
| Routes.OthersReachUpdateProfile | src/routes/index.tsx:81-89 | a signed-in landowner or "Scout" navigating to "/updateprofile" sees the profile editor despite the "only investors" comment |
| Routes.TablePathsDistinct | src/routes/index.tsx:17-90 | no two routes of the table share a path pattern |
| Routes.FindOwnPath | src/routes/index.tsx:17-90 | in a table with distinct paths, looking a route's own path up finds that route |
| Routes.FindTableRoute | src/routes/index.tsx:17-90 | every route of the table is found by its own path |
| Attributes.FirstIndex | src/views/login/index.tsx:25-28 | `find` returns the first attribute with the name, and nothing only when no attribute has it |
| Attributes.FindValue | src/views/profile/updateProfile.tsx:78 | a value is found if and only if some attribute has the name |
| Attributes.FindValueFirstWins | src/views/profile/profileview.tsx:53 | attributes of the same name added later never change the value found |
| Login.AfterVerify | src/views/login/index.tsx:24-47 | /dashboard is opened exactly when verification answered with `UserAttributes`, the token is removed exactly when it answered without them, and no other token write happens |
| Login.Attempt | src/views/login/index.tsx:16-47 | a navigation only ever goes to /dashboard, and only after both the sign-in and the verification call resolved (the session it leaves is in Login.VerifiedLogin, Login.UnverifiedLogin and the other Login rows) |
| Login.OnFinish | src/views/login/index.tsx:14-51 | the spinner is on first and off last on every path |
| Login.OnFinishSession | src/views/login/index.tsx:48-50 | the spinner changes do not affect the session |
| Login.TokenStoredBeforeVerify | src/views/login/index.tsx:17-21 | the token is written before the verification request, which then carries "Bearer <token>" |
| Login.TokenPathSession | src/views/login/index.tsx:17-44 | once sign-in gives a token, the final session is what verification makes of the session holding it |
| Login.VerifiedLogin | src/views/login/index.tsx:24-40 | with `UserAttributes` the token stays, `userType` becomes the first `custom:userType` value (or is kept when there is none) and the dashboard opens |
| Login.UnverifiedLogin | src/views/login/index.tsx:41-44 | without `UserAttributes` the token is removed again and there is no navigation |
| Login.FailedVerifyKeepsToken | src/views/login/index.tsx:45-47 | a non-401 verification failure keeps the token already written and does not navigate |
| Login.UnauthorizedVerifyClearsToken | src/service/authService.ts:41-49 | a 401 on verification clears the token that was just written and does not navigate |
| Login.UnauthorizedVerifySchedulesRedirect | src/service/authService.ts:16-22 | a 401 on verification schedules the delayed /login redirect |
| Login.FailedSigninKeepsSession | src/views/login/index.tsx:16-47 | a failed sign-in (not a 401) or a reply without a token changes no storage and does not navigate |
| Layout.HandleLogout | src/component/MainLayout/index.tsx:40-65 | confirming removes the token and ends with the navigation to /login; cancelling only shows an info notice (sessions are in Layout.ConfirmedLogout and Layout.CancelledLogout) |
| Layout.AfterSignOutClearsToken | src/component/MainLayout/index.tsx:52-57 | the logout tail removes only the token |
| Layout.ConfirmedLogout | src/component/MainLayout/index.tsx:49-61 | a confirmed logout ends with no token and a navigation to /login whether `signOut` succeeds or fails |
| Layout.LogoutKeepsUserType | src/component/MainLayout/index.tsx:49-61 | no logout path touches `userType` |
| Layout.CancelledLogout | src/component/MainLayout/index.tsx:62-64 | a cancelled logout changes no storage and only shows a notice |
| Layout.MenuItems | src/component/MainLayout/index.tsx:109-113 | the Amentics item is listed if and only if the stored user type is exactly "LANDOWNER" (the check at lines 30-33) |
| Layout.HeaderTag | src/component/MainLayout/index.tsx:167 | the header tag is the stored user type followed by " Account", "null Account" when none is stored |
| Text.ToLower | src/views/marketplace/PropertyList.tsx:131-132 | lower-casing keeps the length and lower-cases exactly the ASCII capitals |
| Text.IncludesIffOccurs | src/views/marketplace/PropertyList.tsx:131-132 | `includes` holds if and only if the needle occurs at some position of the text |
| Text.Truncate | src/views/marketplace/PropertyList.tsx:341-343 | text within the limit is kept; longer text becomes its first `keep` characters and "..." |
| Lists.Keep | src/views/marketplace/PropertyList.tsx:129-135 | `filter` keeps exactly the elements that pass the test, each as many times as it occurs in the input |
| Lists.KeepIsSubsequence | src/views/marketplace/PropertyList.tsx:129-135 | a filtered list is a subsequence of its input, in the same order |
| Marketplace.SearchResult | src/views/marketplace/PropertyList.tsx:123-135 | an empty term leaves the list as it is; otherwise a product stays if and only if its lower-cased name or description contains the lower-cased term, as many times as it was listed |
| Text.IncludesEmpty | src/views/marketplace/PropertyList.tsx:142-143 | every text includes the empty string, so an empty location keeps every product |
| Marketplace.HandleSearch | src/views/marketplace/PropertyList.tsx:120-136 | the list becomes the search result; for the empty term the only effect is the stray `alert("ggkgkg")`, and a non-empty term has no effect besides the filtering |
| Marketplace.SearchNarrows | src/views/marketplace/PropertyList.tsx:129-135 | a search only narrows the current list and keeps its order |
| Marketplace.SearchTwice | src/views/marketplace/PropertyList.tsx:129-135 | repeating a search changes nothing |
| Marketplace.SearchIgnoresCase | src/views/marketplace/PropertyList.tsx:131-132 | the term's letter case does not matter |
| Marketplace.HandleSearchLocation | src/views/marketplace/PropertyList.tsx:142-146 | exactly the products whose location type (missing is "") contains the value, ignoring case, are kept, with their multiplicity and in their order |
| Marketplace.EmptyLocationKeepsAll | src/views/marketplace/PropertyList.tsx:143 | the empty value keeps every product |
| Marketplace.MissingLocationDropped | src/views/marketplace/PropertyList.tsx:143 | a product without a location type is dropped by any non-empty value |
| Marketplace.SortListing | src/views/marketplace/PropertyList.tsx:109-118 | "price-asc" loads the ascending list, "price-desc" the descending one, anything else the default list (read from `products`, the sorted ones from `product`) |
| Marketplace.ListedProducts | src/views/marketplace/PropertyList.tsx:46-56 | a missing list shows as empty (also lines 75 and 88) |
| Marketplace.CardDescription | src/views/marketplace/PropertyList.tsx:341-343 | a description over 350 characters shows as its first 350 and "...", otherwise verbatim |
| Marketplace.RequiredInvestment | src/views/marketplace/productDeatails.tsx:352 | the amount shown is what the collected amount still lacks from the price, and it is not positive exactly when the price is reached (also line 487 and PropertyList.tsx line 315) |
| Marketplace.LandownerControlsExact | src/views/marketplace/PropertyList.tsx:41-42 | the add and delete controls (lines 177 and 358) appear exactly for a stored "LANDOWNER" |
| Marketplace.CarouselImages | src/views/marketplace/PropertyList.tsx:274-276 | a card shows its images, or the 300 px placeholder when there are none |
| Marketplace.MainImage | src/views/marketplace/productDeatails.tsx:119-123 | the main image is the first URL, or the placeholder for an empty or missing list |
| Marketplace.SmallImages | src/views/marketplace/productDeatails.tsx:126 | the small images are the entries at positions 1 to 4, never the first, at most four |
| Marketplace.ImagesArePrefix | src/views/marketplace/productDeatails.tsx:119-126 | the main image followed by the small ones is a prefix of the image list |
| Marketplace.FindAmenity | src/views/marketplace/productDeatails.tsx:291-293 | the amenity found has the id, and none is found only when no fetched amenity has it |
| Marketplace.RenderedAmenities | src/views/marketplace/productDeatails.tsx:289-296 | one card per desired id with a match, the first match, in desired order |
| Marketplace.RenderedIffMatched | src/views/marketplace/productDeatails.tsx:289-296 | a desired id gets a card if and only if some fetched amenity has that id |
| Marketplace.AmenitiesSection | src/views/marketplace/productDeatails.tsx:288-318 | the "No amenities available" text appears exactly when no amenity is desired |
| Marketplace.HandleSendMessage | src/views/marketplace/productDeatails.tsx:41-61 | with no owner e-mail, an error and nothing sent; otherwise the message, the owner's e-mail and the product id are sent; the modal closes and the form resets only after success; the session is unchanged |
| Dashboard.InvestorMessage | src/views/dashboard/index.tsx:56-57 | messages over 100 characters show their first 70 and "..."; the cell never exceeds 100 |
| Dashboard.OwnerMessage | src/views/dashboard/index.tsx:86-87 | messages over 100 characters show their first 100 and "..." |
| Dashboard.MessageCellsAgreeOnShortMessages | src/views/dashboard/index.tsx:56-87 | the two cells agree if and only if the message has at most 100 characters |
| Dashboard.InvestorColour | src/views/dashboard/index.tsx:63-64 | orange exactly for "pending", green otherwise |
| Dashboard.OwnerColour | src/views/dashboard/index.tsx:94-101 | orange exactly for "pending", green exactly for "accepted", red otherwise (also lines 340-347) |
| Dashboard.ColoursAgree | src/views/dashboard/index.tsx:63-101 | the two colourings agree exactly on "pending" and "accepted" |
| Dashboard.OwnerCell | src/views/dashboard/index.tsx:79-80 | the cell is `first_name (email)`, or "N/A" without an owner |
| Dashboard.OwnerCellNotApplicable | src/views/dashboard/index.tsx:79-80 | the cell reads "N/A" if and only if the owner is missing |
| Dashboard.FetchRequests | src/views/dashboard/index.tsx:177-199 | the spinner is on during the call; success replaces that one list; failure keeps both lists and shows that list's error |
| Dashboard.Refresh | src/views/dashboard/index.tsx:159-163 | "LANDOWNER" refreshes the landowner requests, "INVESTOR" the contact requests, any other value nothing |
| Dashboard.MountFetch | src/views/dashboard/index.tsx:123-132 | on mount, the role decides which list is fetched; any other role fetches nothing and the spinner stays on |
| Dashboard.ScoutFetchesNothing | src/views/dashboard/index.tsx:127-131 | a scout, in either spelling, and a missing user type fetch nothing |
| Dashboard.SetStatus | src/views/dashboard/index.tsx:147-151 | exactly the requests with the selected id get the new status; everything else is kept |
| Dashboard.SetStatusLastWins | src/views/dashboard/index.tsx:147-151 | setting two statuses in a row leaves the last |
| Dashboard.SetStatusApplies | src/views/dashboard/index.tsx:147-151 | after the update every request with the id has the new status and the ids are unchanged |
| Dashboard.Finish | src/views/dashboard/index.tsx:157-168 | the `finally` block refreshes by role, turns the spinner off, closes the modal and clears the selection |
| Dashboard.HandleStatusChangeAsWritten | src/views/dashboard/index.tsx:137-169 | as written: no-op without a selection; otherwise the status post, then always the failure notice; it ends with the spinner off, the modal closed and the selection cleared, and the landowner list is only what the refresh leaves, never updated locally |
| Dashboard.AsWrittenNeverReportsSuccess | src/views/dashboard/index.tsx:143-157 | as written, even a successful status change reports failure and never success |
| Dashboard.RefreshHasNoSuccessNotice | src/views/dashboard/index.tsx:177-199 | the refresh shows no success notice |
| Dashboard.HandleStatusChange | src/views/dashboard/index.tsx:137-169 | no-op without a selection; otherwise the post, then success or failure as the server answered, and the modal closed with the selection cleared |
| Dashboard.StatusChangeApplied | src/views/dashboard/index.tsx:147-163 | a successful change leaves the selected request with the new status in the landowner list for a landowner whose `finally` refetch fails, and for every other user type: an INVESTOR's refetch loads only the contact requests, and any other role fetches nothing |
| Dashboard.StatusChangeRefetched | src/views/dashboard/index.tsx:157-160 | for a landowner whose refetch succeeds, the list after the change is exactly the server's list, in both versions |
| Dashboard.VersionsAgreeOnFailure | src/views/dashboard/index.tsx:154-157 | for a rejected status change the two versions coincide |
| Signup.MatchPasswordPattern | src/views/signup/index.tsx:251 | the scan accepts if and only if the password has at least six characters and no line terminators, and contains a digit, a lower-case letter, an upper-case letter and a character that is not an ASCII letter or digit |
| Signup.PasswordErrors | src/views/signup/index.tsx:244-255 | no message if and only if the pattern matches; an empty password is reported only as missing; the length and pattern messages appear exactly when their rules fail |
| Signup.LengthRuleSubsumed | src/views/signup/index.tsx:247-251 | the minimum-length message never appears without the pattern message |
| Signup.ConfirmErrors | src/views/signup/index.tsx:268-279 | an empty confirmation is reported as missing; the mismatch message appears if and only if a non-empty confirmation differs from the password |
| Signup.ConfirmAcceptedIff | src/views/signup/index.tsx:268-279 | the confirmation passes if and only if it is non-empty and equals the password |
| Signup.FieldValue | src/views/signup/index.tsx:60 | a padded date field reads back as its number |
| Signup.Field | src/views/signup/index.tsx:60 | each date field is all digits, exactly as wide as the format asks when the number fits |
| Signup.FormatDate | src/views/signup/index.tsx:60 | a formatted date has ten characters with dashes at positions 4 and 7 |
| Signup.ParseFormatDate | src/views/signup/index.tsx:59-61 | the "YYYY-MM-DD" text reads back as the date picked |
| Signup.Payload | src/views/signup/index.tsx:51-64 | yourname, familyname and usertype are sent as givenName, familyName and userType; the birth date is "" if and only if none was picked |
| Signup.PayloadRoundTrip | src/views/signup/index.tsx:51-64 | nothing the user entered is lost in the payload |
| Signup.SignupErrorText | src/views/signup/index.tsx:72-79 | the server's `error` text, else "User already exists"; a thrown non-`Error` shows the generic text |
| Signup.HttpFailureText | src/views/signup/index.tsx:72-77 | an HTTP failure without server text shows "User already exists" |
| Signup.ShowMessage | src/views/signup/index.tsx:67 | a missing response message prints as "undefined" |
| Signup.OnFinish | src/views/signup/index.tsx:48-84 | the spinner is on then off; /login opens if and only if the sign-up succeeds; the matching notice is shown |
| Signup.FlagUrl | src/views/signup/index.tsx:25-29 | the flag URL is the flagcdn prefix, then the lower-cased code, then ".png" (also addPropertyForm.tsx lines 21-25) |
| Signup.FlagUrlCaseless | src/views/marketplace/addPropertyForm.tsx:21-25 | two codes give the same flag URL if and only if they agree after lower-casing |
| FormData.AppendFile | src/views/amentics/addAmeticesModal.tsx:62-64 | an entry with a picked file appends that file; without one, the text "undefined" |
| AddProperty.HandleUploadChange | src/views/marketplace/addPropertyForm.tsx:56-58 | the reported list is stored as it is, and the upload tile shows if and only if it holds fewer than five entries |
| AddProperty.UploadListNotCapped | src/views/marketplace/addPropertyForm.tsx:56-105 | whatever the earlier state, every reported entry is kept, the tile hides at five or more, and every picked file, a sixth included, is posted by `handleFinish` |
| AddProperty.FileParts | src/views/marketplace/addPropertyForm.tsx:63-67 | one "files" entry per listed entry with a picked file, and no other |
| AddProperty.FilePartsAppend | src/views/marketplace/addPropertyForm.tsx:63-67 | the file entries keep list order |
| AddProperty.ValuePart | src/views/marketplace/addPropertyForm.tsx:70-78 | arrays go as JSON, numbers as decimal text, text as is, anything else as `String(value)` |
| Decimal.ParseFromInt | src/views/marketplace/addPropertyForm.tsx:73-74 | `toString` of an integer reads back as that integer |
| AddProperty.NumberPartReadsBack | src/views/marketplace/addPropertyForm.tsx:73-74 | a number's text reads back as the number |
| AddProperty.ValueParts | src/views/marketplace/addPropertyForm.tsx:70-78 | one entry per form value, in order |
| AddProperty.FormDataOf | src/views/marketplace/addPropertyForm.tsx:59-78 | the file entries come first, exactly as `FileParts` lists them, then one entry per form value, in order |
| AddProperty.PostedNumbersReadBack | src/views/marketplace/addPropertyForm.tsx:70-78 | every number typed reaches the server as text that reads back as that number |
| AddProperty.HandleFinish | src/views/marketplace/addPropertyForm.tsx:80-87 | the post carries the call site's bearer header; /marketplace opens if and only if the post succeeds |
| AddProperty.FetchAmenities | src/views/marketplace/addPropertyForm.tsx:39-53 | success replaces the amenity list; failure keeps it and shows an error; the spinner is on, then off (also productDeatails.tsx lines 86-97) |
| Profile.AttributeValue | src/views/profile/updateProfile.tsx:76-80 | the value of the first attribute with the name, else the fallback ("" in the form, "N/A" on the page) when there is no profile, no match or an empty value |
| Profile.ViewsAgreeOnPresentValues | src/views/profile/profileview.tsx:51-55 | the two views agree exactly on attributes with a non-empty value |
| Profile.DisplayName | src/views/profile/profileview.tsx:95 | the title is the user name, or "N/A" |
| Profile.ProfilePage | src/views/profile/profileview.tsx:95-140 | the role tag reads `custom:userType`, and the listed fields include country from `custom:country`, each with the "N/A" fallback |
| Profile.EmptyPageIsNotApplicable | src/views/profile/profileview.tsx:51-55 | before a profile arrives every text on the page is "N/A" |
| Profile.FetchProfile | src/service/profileService.ts:14-20 | without a truthy token there is no request; otherwise the token travels in the body with no bearer header; a failure notice appears only where `message` is imported (updateProfile.tsx lines 45-60, profileview.tsx lines 35-49) |
| Profile.PopulateFormAsWritten | src/views/profile/updateProfile.tsx:63-74 | as written: the user name comes from the fetched data, every other field from the stale state |
| Profile.PopulateAsWrittenBlanks | src/views/profile/updateProfile.tsx:63-80 | on mount every field except the user name is blank |
| Profile.PopulateForm | src/views/profile/updateProfile.tsx:63-74 | as intended: every field, country from `custom:country`, comes from the fetched profile |
| Profile.PopulateKeepsPresentValues | src/views/profile/updateProfile.tsx:63-80 | a present e-mail reaches the intended form but not the one as written |
| Profile.PopulateMatchesPage | src/views/profile/updateProfile.tsx:63-80 | for each of the seven attributes the profile page lists, the intended form agrees with the page exactly when the attribute has a non-empty value, and otherwise shows "" where the page shows "N/A" |
| Profile.PageFieldMatches | src/views/profile/updateProfile.tsx:63-80 | the same agreement at one position of the page |
| Profile.PopulateVersionsAgree | src/views/profile/updateProfile.tsx:63-80 | the versions coincide once the state holds the fetched profile |
| Profile.UpdateBody | src/views/profile/updateProfile.tsx:85-93 | the update body copies all seven values except the user name, with the birth date as "YYYY-MM-DD"; a cleared birth date makes it throw |
| Profile.UpdateBodyDate | src/views/profile/updateProfile.tsx:91 | the submitted birth date reads back as the date picked |
| Profile.OnFinishAsWritten | src/views/profile/updateProfile.tsx:83-99 | as written: no submission shows the success notice or changes the editing flag |
| Profile.OnFinish | src/views/profile/updateProfile.tsx:83-99 | as intended: the form becomes read-only if and only if the update succeeds |
| Profile.UpdateVersionsDiffer | src/views/profile/updateProfile.tsx:83-99 | the versions differ exactly on a successful update |
| Profile.EditingAfterSubmission | src/views/profile/updateProfile.tsx:153 | a submission as written never disables the form; the intended one disables it after a successful update |
| Upload.BeforeUpload | src/views/amentics/addAmeticesModal.tsx:43-50 | a file is accepted silently if and only if its MIME type starts with "image/"; otherwise LIST_IGNORE and the error (also ImageUploader/index.tsx lines 30-37) |
| Upload.MimeCheckExamples | src/component/ImageUploader/index.tsx:30-37 | examples of the `BeforeUpload` iff: the check is case-sensitive and needs the slash |
| Upload.KeepLast | src/views/amentics/addAmeticesModal.tsx:24 | the kept list is the last entry alone, empty only for an empty list |
| Upload.KeepLastLaws | src/views/amentics/addAmeticesModal.tsx:24-25 | keeping the last entry is idempotent, and the newest pick wins |
| Upload.HandleFileChange | src/views/amentics/addAmeticesModal.tsx:23-34 | the list becomes the last entry; the preview shows its file, is cleared for an empty list, and stays put when `createObjectURL` throws |
| Upload.HandleRemove | src/views/amentics/addAmeticesModal.tsx:37-40 | both the list and the preview are emptied |
| Upload.RemoveIsEmptyChange | src/views/amentics/addAmeticesModal.tsx:27-40 | removing equals a change to the empty list |
| Upload.AmenityParts | src/views/amentics/addAmeticesModal.tsx:60-64 | the name entry, then one "files" entry per listed entry |
| Upload.HandleSubmit | src/views/amentics/addAmeticesModal.tsx:53-79 | no file means an error and nothing sent; success clears form, list and preview, then calls `onSuccess` and `onClose`; the spinner is off at the end |
| Upload.ModalPostsOneFile | src/views/amentics/addAmeticesModal.tsx:23-64 | after a file change the modal posts the name and the last pick only |
| Upload.UploaderChange | src/component/ImageUploader/index.tsx:10-12 | `onChange` stores the control's list as it comes, so the tile (line 50) shows if and only if that list is empty |
| Upload.UploaderTileAfterChange | src/component/ImageUploader/index.tsx:10-50 | what the uploader stored before a change never affects the list or the tile after it |
| Upload.PreviewSource | src/component/ImageUploader/index.tsx:14-27 | a non-empty `url` is used as is; only without one is the file read; with neither the preview fails |

## Left out

- Rendering, antd layout and styles are not modelled. Only the helpers and handlers above are.
- Real HTTP is replaced by abstract replies:
  - each call is a `Reply` (a response with a body, or an error with an optional status and server text);
  - timers, `window.location` and router navigation are effects;
  - `URL.createObjectURL` and `FileReader` are function parameters.
- Concurrency is not modelled. Each handler runs to completion on the replies it is given, so out-of-order answers between concurrent fetches are not covered.
- `dayjs` parsing is not modelled. The update form passes the attribute text on as it stands.
  - Only the "YYYY-MM-DD" output of a picked date is modelled: years 0-9999, month 1-12, day 1-31.
  - The date picker's no-future-dates rule depends on the clock, so it is left out.
- `JSON.stringify` is not modelled: an array value is posted as an opaque JSON entry.
- Numbers are integers, so fractional amounts and their printing are left out.
- Text is ASCII-only:
  - lower-casing and the password rule treat only ASCII letters as letters;
  - lengths count characters, not UTF-16 code units, so a character outside the Basic Multilingual Plane counts once.
- antd's own validation is not modelled. This includes validate-first ordering, `required` treating whitespace as present, and the Upload `maxCount` trimming.
- The `world-countries` data is not modelled. Only the flag URL built from a code is.
- The cancel and edit buttons of the update form only toggle the editing flag; they are not modelled.
- Routes.Find: an exact, case-sensitive lookup of the path pattern. The router also matches paths case-insensitively ("/Dashboard"), with a trailing slash ("/dashboard/") and with `:id` expanded ("/product/7"); these matches are not modelled, so such paths give no match here, while the router shows the same guarded view.
- The amenity management page, the amenity service's list and delete calls, the product delete and amenity filter handlers, and the page wrappers are composition only and are not modelled.
- Login.FailedSigninKeepsSession: does not cover a 401 on the sign-in call, which goes through the 401 handler like any other AuthApi call.
- Marketplace.HandleSendMessage: the payload is returned as data; the request effect does not carry bodies.
- Profile.OnFinish: the update endpoint does not exist in the profile service, so the settled call is a parameter and carries no request effect.

## Findings

| source | as written | input that shows it | evidently intended | confidence | as-written member | corrected member |
|---|---|---|---|---|---|---|
| src/views/dashboard/index.tsx:147 | after a successful status post the handler calls `setRequestsOwner`, but the declared setter (line 28) is `setRequestsowner`; the call throws, so the catch block reports failure and the local list is not updated | a landowner accepts a request and the server answers 200 | update the selected request's status locally and show "Request has been accepted!" | not executed; high | Dashboard.HandleStatusChangeAsWritten | Dashboard.HandleStatusChange |
| src/views/profile/updateProfile.tsx:63-79 | `populateForm(data)` takes every field except the user name from `getAttributeValue`, which reads the `profile` state of the first render (`null`), not `data` | any profile fetched on mount, e.g. one whose `email` attribute is "a@b.c" | fill every field from the fetched profile | not executed; high | Profile.PopulateFormAsWritten | Profile.PopulateForm |
| src/views/profile/updateProfile.tsx:85 | `profileService.updateProfile` is called, but the profile service (src/service/profileService.ts:13-21) defines only `getProfile`; the call throws before any request | any submission of the update form with a birth date | post the update and, on success, show "Profile updated successfully!" and disable the form | not executed; high | Profile.OnFinishAsWritten | Profile.OnFinish |
| src/routes/index.tsx:25 | every guarded route allows "Scout", but sign-up stores the role as "SCOUT" (src/views/signup/index.tsx:206), and the guard compares exactly | a user who signed up as a scout, stored `userType` "SCOUT", opens /dashboard | admit the three roles sign-up offers | not executed; medium | Routes.UppercaseScoutLockedOut | Routes.SignupRolesAdmittedWhenIntended |

=== FILE: addproperty.dfy ===
/**
 * The add-property form: the upload list and its "Upload" tile, the
 * `FormData` the form posts (picked files first, then every form value
 * converted the way `handleFinish` converts it), and what the page does
 * once the post settles.
 */
module AddProperty {
  import opened Js
  import opened Decimal
  import opened Session
  import opened Effects
  import opened Http
  import opened Services
  import opened FormData

  /** At most this many entries before the "Upload" tile disappears. */
  const MaxFiles := 5

  /** `fileList.length >= 5 ? null : <tile>`. The tile only hides: a multiple pick can still
      take the list past five. */
  predicate ShowUploadTile(files: seq<UploadFile>)
  {
    |files| < MaxFiles
  }

  /** The upload field's state: the list the control last reported. */
  datatype UploadField = UploadField(fileList: seq<UploadFile>)

  /** `handleUploadChange({ fileList })`: the reported list is stored as it is, with no cap and no
      filtering, and the previous list plays no part. */
  function HandleUploadChange(f: UploadField, reported: seq<UploadFile>): (r: UploadField)
    ensures r.fileList == reported
    ensures ShowUploadTile(r.fileList) <==> |reported| < MaxFiles
  {
    UploadField(reported)
  }

  /** The "files" entries: one per listed entry that has a picked file, in list order; entries
      without a file are skipped. */
  function FileParts(files: seq<UploadFile>): (parts: seq<Part>)
    ensures |parts| <= |files|
    ensures forall i :: 0 <= i < |parts| ==> parts[i].FilePart? && parts[i].key == "files"
    ensures forall j :: 0 <= j < |files| && files[j].originFileObj.Some? ==>
      FilePart("files", files[j].originFileObj.value) in parts
    ensures forall p :: p in parts ==> exists j :: 0 <= j < |files| && files[j].originFileObj == Some(p.file)
  {
    if files == [] then []
    else
      var rest := FileParts(files[1..]);
      assert forall p :: p in rest ==> exists j :: 0 <= j < |files| && files[j].originFileObj == Some(p.file) by {
        forall p | p in rest
          ensures exists j :: 0 <= j < |files| && files[j].originFileObj == Some(p.file)
        {
          var k :| 0 <= k < |files[1..]| && files[1..][k].originFileObj == Some(p.file);
          assert files[k + 1].originFileObj == Some(p.file);
        }
      }
      match files[0].originFileObj
      case Some(o) => [FilePart("files", o)] + rest
      case None => rest
  }

  /** The entries of two lists in a row are the entries of the first, then those of the second. */
  lemma {:induction false} FilePartsAppend(a: seq<UploadFile>, b: seq<UploadFile>)
    ensures FileParts(a + b) == FileParts(a) + FileParts(b)
    decreases |a|
  {
    if a == [] {
      assert a + b == b;
    } else {
      assert (a + b)[1..] == a[1..] + b;
      FilePartsAppend(a[1..], b);
    }
  }

  /** The entry one form value becomes: arrays as their JSON text, numbers as their decimal text,
      text as is, and anything else through `String(...)`. */
  function ValuePart(key: string, v: FormValue): (p: Part)
    ensures p.key == key
    ensures p.JsonPart? <==> v.ArrayValue?
    ensures v.ArrayValue? ==> p.value == v
    ensures v.NumberValue? ==> p == TextPart(key, FromInt(v.number))
    ensures v.TextValue? ==> p == TextPart(key, v.text)
    ensures v.Undefined? ==> p == TextPart(key, "undefined")
    ensures v.ObjectValue? ==> p == TextPart(key, "[object Object]")
  {
    match v
    case ArrayValue(_) => JsonPart(key, v)
    case NumberValue(n) => TextPart(key, FromInt(n))
    case TextValue(t) => TextPart(key, t)
    case Undefined => TextPart(key, "undefined")
    case ObjectValue => TextPart(key, "[object Object]")
  }

  /** A number posted as text reads back as the same number. */
  lemma NumberPartReadsBack(key: string, n: int)
    ensures ValuePart(key, NumberValue(n)).TextPart?
    ensures Parse(ValuePart(key, NumberValue(n)).text) == Some(n)
  {
    ParseFromInt(n);
  }

  /** The value entries, one per `Object.entries(values)` pair, in the same order. */
  function ValueParts(entries: seq<(string, FormValue)>): (parts: seq<Part>)
    ensures |parts| == |entries|
    ensures forall i :: 0 <= i < |entries| ==> parts[i] == ValuePart(entries[i].0, entries[i].1)
  {
    seq(|entries|, i requires 0 <= i < |entries| => ValuePart(entries[i].0, entries[i].1))
  }

  /** The whole `FormData`: the files first, then the values. */
  function FormDataOf(files: seq<UploadFile>, entries: seq<(string, FormValue)>): (parts: seq<Part>)
    ensures |parts| == |FileParts(files)| + |entries|
    ensures forall i :: 0 <= i < |FileParts(files)| ==> parts[i].FilePart? && parts[i].key == "files"
    ensures forall i :: 0 <= i < |entries| ==> parts[|FileParts(files)| + i] == ValuePart(entries[i].0, entries[i].1)
    ensures parts[..|FileParts(files)|] == FileParts(files)
  {
    FileParts(files) + ValueParts(entries)
  }

  /** Every number the user typed reaches the server as text that reads back as that number. */
  lemma PostedNumbersReadBack(files: seq<UploadFile>, entries: seq<(string, FormValue)>, i: nat)
    requires i < |entries| && entries[i].1.NumberValue?
    ensures var p := FormDataOf(files, entries)[|FileParts(files)| + i];
      p.TextPart? && Parse(p.text) == Some(entries[i].1.number)
  {
    var parts := FormDataOf(files, entries);
    assert parts[|FileParts(files)| + i] == ValuePart(entries[i].0, NumberValue(entries[i].1.number));
    NumberPartReadsBack(entries[i].0, entries[i].1.number);
  }

  const ProductAddedText := "Property added successfully!"
  const ProductFailedText := "Failed to add product."
  const MarketplacePath := "/marketplace"

  datatype Finish = Finish(effects: seq<Effect>, posted: seq<Part>)

  /** `handleFinish(values)`: the form data is posted with the call site's own bearer header; on
      success a notice and the marketplace page, on failure an error notice and the form stays. */
  function HandleFinish<D>(s: Session, files: seq<UploadFile>, entries: seq<(string, FormValue)>,
                           reply: Reply<D>): (r: Finish)
    ensures r.posted == FormDataOf(files, entries)
    ensures |r.effects| >= 2 && r.effects[0] == Request("POST", AddProductPath, Some(Bearer(GetAuthToken(s))))
    ensures Navigate(MarketplacePath) in r.effects <==> reply.Resolved?
    ensures reply.Resolved? ==> r.effects[1..] == [Notice(Success, ProductAddedText), Navigate(MarketplacePath)]
    ensures reply.Rejected? ==> r.effects[1..] == [Notice(Error, ProductFailedText)]
    ensures Replay(s, r.effects) == s
  {
    var call := OwnHeaderCall(s, "POST", AddProductPath, reply);
    var after := if reply.Resolved? then [Notice(Success, ProductAddedText), Navigate(MarketplacePath)]
                 else [Notice(Error, ProductFailedText)];
    var effs := call.effects + after;
    ReplayWithoutStorage(s, effs);
    Finish(effs, FormDataOf(files, entries))
  }

  /** Nothing caps the stored list: whatever the earlier state, every reported entry is kept, the
      tile is hidden once five or more are listed, and every picked file among them, a sixth
      included, is posted by `handleFinish`. */
  lemma UploadListNotCapped<D>(s: Session, f: UploadField, g: UploadField, reported: seq<UploadFile>,
                               entries: seq<(string, FormValue)>, reply: Reply<D>)
    ensures HandleUploadChange(f, reported) == HandleUploadChange(g, reported)
    ensures |HandleUploadChange(f, reported).fileList| == |reported|
    ensures |reported| >= MaxFiles ==> !ShowUploadTile(HandleUploadChange(f, reported).fileList)
    ensures forall j :: 0 <= j < |reported| && reported[j].originFileObj.Some? ==>
      FilePart("files", reported[j].originFileObj.value)
        in HandleFinish(s, HandleUploadChange(f, reported).fileList, entries, reply).posted
  {
  }

  const AllAmenitiesPath := "/landowner/all/amenities"
  const AmenitiesFailedText := "Failed to fetch amenities"

  datatype AmenitiesBody<A> = AmenitiesBody(amenities: seq<A>)

  /** `fetchAmenities()` on mount (the add-property form and the details page): spinner on while
      `amenityService` loads the list; success replaces the list, failure keeps it with an error. */
  function FetchAmenities<A>(s: Session, current: seq<A>, reply: Reply<AmenitiesBody<A>>): (r: (seq<Effect>, seq<A>))
    ensures |r.0| >= 3 && r.0[0] == Loading(true) && r.0[1] == Request("GET", AllAmenitiesPath, SentAuthorization(s, map[]))
    ensures reply.Resolved? ==> r.1 == reply.response.data.amenities && r.0[2..] == [Loading(false)]
    ensures reply.Rejected? ==> r.1 == current && r.0[2..] == [Notice(Error, AmenitiesFailedText), Loading(false)]
  {
    var call := PlainCall(s, "GET", AllAmenitiesPath, reply);
    match call.result
    case Fulfilled(body) => ([Loading(true)] + call.effects + [Loading(false)], body.amenities)
    case Failed(_) => ([Loading(true)] + call.effects + [Notice(Error, AmenitiesFailedText), Loading(false)], current)
  }
}

=== FILE: attributes.dfy ===
/**
 * Cognito-style user attributes (`{ Name, Value }` pairs) and the
 * "first attribute with this name" lookup used by the login and profile
 * views.
 */
module Attributes {
  import opened Js

  datatype Attribute = Attribute(name: string, value: string)

  /** The index of the first attribute called `name` (`Array.prototype.find`). */
  function FirstIndex(attrs: seq<Attribute>, name: string): (r: Option<nat>)
    ensures r.Some? ==> r.value < |attrs| && attrs[r.value].name == name
    ensures r.Some? ==> forall j :: 0 <= j < r.value ==> attrs[j].name != name
    ensures r.None? <==> forall j :: 0 <= j < |attrs| ==> attrs[j].name != name
  {
    if attrs == [] then None
    else if attrs[0].name == name then Some(0)
    else match FirstIndex(attrs[1..], name)
      case None => None
      case Some(k) => Some(k + 1)
  }

  /** `attrs.find((a) => a.Name === name)?.Value`. */
  function FindValue(attrs: seq<Attribute>, name: string): (r: Option<string>)
    ensures r.Some? <==> exists j :: 0 <= j < |attrs| && attrs[j].name == name
  {
    match FirstIndex(attrs, name)
    case None => None
    case Some(k) => Some(attrs[k].value)
  }

  /** The value found belongs to the first attribute of that name, so attributes of that name
      appended later never change it. */
  lemma FindValueFirstWins(attrs: seq<Attribute>, more: seq<Attribute>, name: string)
    requires FindValue(attrs, name).Some?
    ensures FindValue(attrs + more, name) == FindValue(attrs, name)
  {
    var k := FirstIndex(attrs, name).value;
    assert (attrs + more)[k] == attrs[k];
    assert forall j :: 0 <= j < k ==> (attrs + more)[j] == attrs[j];
  }
}

=== FILE: dashboard.dfy ===
/**
 * The dashboard: message truncation and status colours in the two request
 * tables, the owner cell, the role-dependent fetch on mount, and the status
 * change a landowner makes from the request modal.
 */
module Dashboard {
  import opened Js
  import opened Text
  import opened Session
  import opened Effects
  import opened Http
  import opened Services

  datatype Person = Person(firstName: string, lastName: string, email: string)

  /** One contact request as the two request-list endpoints return it. */
  datatype ContactRequest = ContactRequest(id: int, message: string, status: string, owner: Option<Person>)

  // ---- table cells ----

  /** The investor table's message cell: over 100 characters shows the first 70 and "...". */
  function InvestorMessage(m: string): (r: string)
    ensures |r| <= 100
    ensures |m| <= 100 ==> r == m
    ensures |m| > 100 ==> r == m[..70] + "..."
  {
    Truncate(m, 100, 70)
  }

  /** The landowner table's message cell: over 100 characters shows the first 100 and "...". */
  function OwnerMessage(m: string): (r: string)
    ensures |r| <= 103
    ensures |m| <= 100 ==> r == m
    ensures |m| > 100 ==> r == m[..100] + "..."
  {
    Truncate(m, 100, 100)
  }

  /** Both cells keep a message of at most 100 characters intact, and both shorten a longer one. */
  lemma MessageCellsAgreeOnShortMessages(m: string)
    ensures InvestorMessage(m) == OwnerMessage(m) <==> |m| <= 100
  {
    if |m| > 100 {
      assert |InvestorMessage(m)| == 73 && |OwnerMessage(m)| == 103;
    }
  }

  /** The investor table's status tag: orange while pending, green for anything else. */
  function InvestorColour(status: string): (c: string)
    ensures c == "orange" <==> status == "pending"
    ensures c == "orange" || c == "green"
  {
    if status == "pending" then "orange" else "green"
  }

  /** The landowner table's and the modal's status tag: orange while pending, green once
      accepted, red for anything else. */
  function OwnerColour(status: string): (c: string)
    ensures c == "orange" <==> status == "pending"
    ensures c == "green" <==> status == "accepted"
    ensures c == "orange" || c == "green" || c == "red"
  {
    if status == "pending" then "orange" else if status == "accepted" then "green" else "red"
  }

  /** The two colourings agree exactly on "pending" and "accepted"; a rejected request is
      green for the investor and red for the landowner. */
  lemma ColoursAgree(status: string)
    ensures InvestorColour(status) == OwnerColour(status) <==> status == "pending" || status == "accepted"
    ensures InvestorColour("rejected") == "green" && OwnerColour("rejected") == "red"
  {
  }

  /** The landowner table's owner cell: `first_name (email)`, or "N/A" without an owner. */
  function OwnerCell(owner: Option<Person>): (r: string)
    ensures owner.None? ==> r == "N/A"
    ensures owner.Some? ==> r == owner.value.firstName + " (" + owner.value.email + ")"
    ensures owner.Some? ==> |r| >= 3 && r[|r| - 1] == ')'
  {
    match owner
    case None => "N/A"
    case Some(p) => p.firstName + " (" + p.email + ")"
  }

  /** "N/A" appears exactly for a request without an owner: no owner renders to it. */
  lemma OwnerCellNotApplicable(owner: Option<Person>)
    ensures OwnerCell(owner) == "N/A" <==> owner.None?
  {
    if owner.Some? {
      var r := OwnerCell(owner);
      assert r[|r| - 1] == ')';
      assert "N/A"[2] == 'A';
    }
  }

  // ---- component state ----

  datatype DashboardState = DashboardState(
    requests: seq<ContactRequest>,
    ownerRequests: seq<ContactRequest>,
    loading: bool,
    modalVisible: bool,
    selected: Option<ContactRequest>)

  /** What a handler did: the effects in order and the component state afterwards. */
  datatype Outcome = Outcome(effects: seq<Effect>, state: DashboardState)

  const ContactFetchFailedText := "Failed to fetch contact requests"
  const OwnerFetchFailedText := "Failed to fetch landowner requests"

  /** `fetchLandownerRequests()` when `owner`, `fetchContactRequests()` otherwise: the spinner
      is on during the call; success replaces that one list; failure shows an error and keeps
      both lists. */
  function FetchRequests(s: Session, st: DashboardState, owner: bool,
                         reply: Reply<RequestsBody<ContactRequest>>): (o: Outcome)
    ensures |o.effects| >= 3 && o.effects[0] == Loading(true) && o.effects[|o.effects| - 1] == Loading(false)
    ensures o.effects[1] == Request("GET", if owner then LandownerRequestsPath else ContactRequestsPath,
                                    Some(Bearer(GetAuthToken(s))))
    ensures !o.state.loading
    ensures o.state.modalVisible == st.modalVisible && o.state.selected == st.selected
    ensures owner ==> o.state.requests == st.requests
    ensures !owner ==> o.state.ownerRequests == st.ownerRequests
    ensures reply.Resolved? && owner ==> o.state.ownerRequests == reply.response.data.requests
    ensures reply.Resolved? && !owner ==> o.state.requests == reply.response.data.requests
    ensures reply.Rejected? ==> o.state == st.(loading := false)
    ensures reply.Rejected? <==> Notice(Error, if owner then OwnerFetchFailedText else ContactFetchFailedText) in o.effects
    ensures forall e :: e in o.effects && e.Notice? ==> e.level == Error
    ensures Replay(s, o.effects) == s
  {
    var path := if owner then LandownerRequestsPath else ContactRequestsPath;
    var call := RequestList(s, path, reply);
    var failure := if owner then OwnerFetchFailedText else ContactFetchFailedText;
    var tail := if reply.Rejected? then [Notice(Error, failure), Loading(false)] else [Loading(false)];
    var effs := [Loading(true)] + call.effects + tail;
    ReplayWithoutStorage(s, effs);
    match call.result
    case Fulfilled(rs) =>
      Outcome(effs, if owner then st.(ownerRequests := rs, loading := false)
                    else st.(requests := rs, loading := false))
    case Failed(_) =>
      Outcome(effs, st.(loading := false))
  }

  /** The role-dependent refresh: a stored "LANDOWNER" loads the landowner requests, a stored
      "INVESTOR" the investor's own contact requests; any other user type fetches nothing. */
  function Refresh(s: Session, st: DashboardState, reply: Reply<RequestsBody<ContactRequest>>): (o: Outcome)
    ensures GetItem(s, UserTypeKey) == Some("LANDOWNER") ==> o == FetchRequests(s, st, true, reply)
    ensures GetItem(s, UserTypeKey) == Some("INVESTOR") ==> o == FetchRequests(s, st, false, reply)
    ensures GetItem(s, UserTypeKey) != Some("LANDOWNER") && GetItem(s, UserTypeKey) != Some("INVESTOR")
            ==> o == Outcome([], st)
    ensures Replay(s, o.effects) == s
  {
    var userType := GetItem(s, UserTypeKey);
    if userType == Some("LANDOWNER") then FetchRequests(s, st, true, reply)
    else if userType == Some("INVESTOR") then FetchRequests(s, st, false, reply)
    else Outcome([], st)
  }

  /** The dashboard's initial state: empty lists, spinner on, modal closed, nothing selected. */
  const Initial := DashboardState([], [], true, false, None)

  /** The mount effect: the role-dependent refresh from the initial state. */
  function MountFetch(s: Session, reply: Reply<RequestsBody<ContactRequest>>): (o: Outcome)
    ensures GetItem(s, UserTypeKey) == Some("LANDOWNER") ==>
      |o.effects| >= 3 && o.effects[1].Request? && o.effects[1].path == LandownerRequestsPath && o.state.requests == []
    ensures GetItem(s, UserTypeKey) == Some("INVESTOR") ==>
      |o.effects| >= 3 && o.effects[1].Request? && o.effects[1].path == ContactRequestsPath && o.state.ownerRequests == []
    ensures GetItem(s, UserTypeKey) != Some("LANDOWNER") && GetItem(s, UserTypeKey) != Some("INVESTOR")
            ==> o.effects == [] && o.state.loading
  {
    Refresh(s, Initial, reply)
  }

  /** A scout, whatever the spelling of the role, and a missing user type never fetch. */
  lemma ScoutFetchesNothing(s: Session, reply: Reply<RequestsBody<ContactRequest>>)
    requires s.userType in {Some("SCOUT"), Some("Scout"), None}
    ensures MountFetch(s, reply).effects == []
  {
  }

  // ---- status change ----

  /** Every request with this id gets the new status; all else stays as it was. */
  function SetStatus(reqs: seq<ContactRequest>, id: int, status: string): (r: seq<ContactRequest>)
    ensures |r| == |reqs|
    ensures forall i :: 0 <= i < |r| ==>
      r[i] == (if reqs[i].id == id then reqs[i].(status := status) else reqs[i])
  {
    if reqs == [] then []
    else [if reqs[0].id == id then reqs[0].(status := status) else reqs[0]] + SetStatus(reqs[1..], id, status)
  }

  /** Setting a status twice is the same as setting the last one. */
  lemma SetStatusLastWins(reqs: seq<ContactRequest>, id: int, a: string, b: string)
    ensures SetStatus(SetStatus(reqs, id, a), id, b) == SetStatus(reqs, id, b)
  {
  }

  /** After the change, every request with the id carries the new status. */
  lemma SetStatusApplies(reqs: seq<ContactRequest>, id: int, status: string)
    ensures forall i :: 0 <= i < |reqs| && reqs[i].id == id ==> SetStatus(reqs, id, status)[i].status == status
    ensures forall i :: 0 <= i < |reqs| ==> SetStatus(reqs, id, status)[i].id == reqs[i].id
  {
  }

  const StatusFailedText := "Failed to update request status."

  function StatusChangedText(status: string): (t: string)
    ensures t == "Request has been " + status + "!"
    ensures |t| == |status| + 18
  {
    "Request has been " + status + "!"
  }

  /** The `finally` block, shared by both versions: refresh by role, then spinner off, modal
      closed and nothing selected. */
  function Finish(s: Session, st: DashboardState, refetch: Reply<RequestsBody<ContactRequest>>): (o: Outcome)
    ensures !o.state.loading && !o.state.modalVisible && o.state.selected.None?
    ensures o.effects == Refresh(s, st, refetch).effects + [Loading(false)]
    ensures Replay(s, o.effects) == s
  {
    var r := Refresh(s, st, refetch);
    ReplayAppend(s, r.effects, [Loading(false)]);
    Outcome(r.effects + [Loading(false)], r.state.(loading := false, modalVisible := false, selected := None))
  }

  /** `handleStatusChange(newStatus)` as the code stands: after the status request succeeds the
      handler calls `setRequestsOwner`, a name the component never declares (its setter is
      `setRequestsowner`), so the call throws, the catch block runs, and a successful change is
      reported as a failure and not applied locally. */
  function HandleStatusChangeAsWritten<D>(s: Session, st: DashboardState, newStatus: string,
                                         reply: Reply<D>, refetch: Reply<RequestsBody<ContactRequest>>): (o: Outcome)
    ensures st.selected.None? ==> o == Outcome([], st)
    ensures st.selected.Some? ==>
      |o.effects| >= 4 &&
      o.effects[0] == Loading(true) &&
      o.effects[1] == Request("POST", StatusChangePath, Some(Bearer(GetAuthToken(s)))) &&
      o.effects[2] == Notice(Error, StatusFailedText)
    ensures st.selected.Some? ==>
      && !o.state.loading && !o.state.modalVisible && o.state.selected.None?
      && o.state.ownerRequests == Refresh(s, st.(loading := true), refetch).state.ownerRequests
    ensures Replay(s, o.effects) == s
  {
    match st.selected
    case None => Outcome([], st)
    case Some(sel) =>
      var call := OwnHeaderCall(s, "POST", StatusChangePath, reply);
      // both branches end in the catch block: a rejection, or the ReferenceError after success
      var before := [Loading(true)] + call.effects + [Notice(Error, StatusFailedText)];
      var fin := Finish(s, st.(loading := true), refetch);
      ReplayWithoutStorage(s, before);
      ReplayAppend(s, before, fin.effects);
      Outcome(before + fin.effects, fin.state)
  }

  /** Whatever the server answers, the code as written never reports success. */
  lemma AsWrittenNeverReportsSuccess<D>(s: Session, st: DashboardState, newStatus: string,
                                        reply: Reply<D>, refetch: Reply<RequestsBody<ContactRequest>>)
    requires st.selected.Some? && reply.Resolved?
    ensures Notice(Error, StatusFailedText) in HandleStatusChangeAsWritten(s, st, newStatus, reply, refetch).effects
    ensures Notice(Success, StatusChangedText(newStatus)) !in HandleStatusChangeAsWritten(s, st, newStatus, reply, refetch).effects
  {
    var o := HandleStatusChangeAsWritten(s, st, newStatus, reply, refetch);
    assert o.effects[2] == Notice(Error, StatusFailedText);
    var call := OwnHeaderCall(s, "POST", StatusChangePath, reply);
    var fin := Finish(s, st.(loading := true), refetch);
    assert o.effects == [Loading(true)] + call.effects + [Notice(Error, StatusFailedText)] + fin.effects;
    RefreshHasNoSuccessNotice(s, st.(loading := true), refetch);
  }

  /** A refresh only ever shows error notices. */
  lemma RefreshHasNoSuccessNotice(s: Session, st: DashboardState, refetch: Reply<RequestsBody<ContactRequest>>)
    ensures forall e :: e in Finish(s, st, refetch).effects ==> !(e.Notice? && e.level == Success)
  {
    var r := Refresh(s, st, refetch);
    assert forall e :: e in r.effects && e.Notice? ==> e.level == Error;
    assert Finish(s, st, refetch).effects == r.effects + [Loading(false)];
  }

  /** `handleStatusChange(newStatus)` as evidently intended: a successful change updates the
      selected request in the landowner list and is reported as such. */
  function HandleStatusChange<D>(s: Session, st: DashboardState, newStatus: string,
                                reply: Reply<D>, refetch: Reply<RequestsBody<ContactRequest>>): (o: Outcome)
    ensures st.selected.None? ==> o == Outcome([], st)
    ensures st.selected.Some? ==>
      |o.effects| >= 4 &&
      o.effects[0] == Loading(true) &&
      o.effects[1] == Request("POST", StatusChangePath, Some(Bearer(GetAuthToken(s)))) &&
      o.effects[2] == (if reply.Resolved? then Notice(Success, StatusChangedText(newStatus))
                       else Notice(Error, StatusFailedText))
    ensures st.selected.Some? ==> !o.state.loading && !o.state.modalVisible && o.state.selected.None?
    ensures Replay(s, o.effects) == s
  {
    match st.selected
    case None => Outcome([], st)
    case Some(sel) =>
      var call := OwnHeaderCall(s, "POST", StatusChangePath, reply);
      var updated := if reply.Resolved? then st.(loading := true, ownerRequests := SetStatus(st.ownerRequests, sel.id, newStatus))
                     else st.(loading := true);
      var notice := if reply.Resolved? then Notice(Success, StatusChangedText(newStatus))
                    else Notice(Error, StatusFailedText);
      var before := [Loading(true)] + call.effects + [notice];
      var fin := Finish(s, updated, refetch);
      ReplayWithoutStorage(s, before);
      ReplayAppend(s, before, fin.effects);
      Outcome(before + fin.effects, fin.state)
  }

  /** A successful change leaves the selected request with the new status in the landowner list
      unless a refresh replaces that list: a stored "LANDOWNER" whose refetch fails keeps the local
      update, and so does every other user type. A stored "INVESTOR" refetches only the contact
      requests, and any other role fetches nothing. */
  lemma StatusChangeApplied<D>(s: Session, st: DashboardState, newStatus: string,
                               reply: Reply<D>, refetch: Reply<RequestsBody<ContactRequest>>)
    requires st.selected.Some? && reply.Resolved?
    requires GetItem(s, UserTypeKey) != Some("LANDOWNER") || refetch.Rejected?
    ensures var o := HandleStatusChange(s, st, newStatus, reply, refetch);
      o.state.ownerRequests == SetStatus(st.ownerRequests, st.selected.value.id, newStatus)
  {
  }

  /** For a stored "LANDOWNER" whose refetch succeeds, the `finally` refresh replaces the local
      update: the list is exactly what the server returned, in both versions. */
  lemma StatusChangeRefetched<D>(s: Session, st: DashboardState, newStatus: string,
                                 reply: Reply<D>, refetch: Reply<RequestsBody<ContactRequest>>)
    requires st.selected.Some? && GetItem(s, UserTypeKey) == Some("LANDOWNER") && refetch.Resolved?
    ensures HandleStatusChange(s, st, newStatus, reply, refetch).state.ownerRequests == refetch.response.data.requests
    ensures HandleStatusChangeAsWritten(s, st, newStatus, reply, refetch).state.ownerRequests
         == refetch.response.data.requests
  {
  }

  /** The two versions differ exactly on success: on a rejected request they are identical. */
  lemma VersionsAgreeOnFailure<D>(s: Session, st: DashboardState, newStatus: string,
                                  reply: Reply<D>, refetch: Reply<RequestsBody<ContactRequest>>)
    requires reply.Rejected?
    ensures HandleStatusChange(s, st, newStatus, reply, refetch)
         == HandleStatusChangeAsWritten(s, st, newStatus, reply, refetch)
  {
  }
}

=== FILE: decimal.dfy ===
/**
 * Decimal text of integers, as JavaScript prints an integral `number`
 * (`value.toString()`, `${id}`), together with a reader proving that
 * the printed text denotes exactly the number printed.
 */
module Decimal {
  import opened Js
  import Text

  /** The character of a decimal digit. */
  function Digit(d: nat): (c: char)
    requires d < 10
    ensures Text.IsDigit(c)
  {
    (48 + d) as char
  }

  /** The value of a decimal digit character. */
  function DigitValue(c: char): (d: nat)
    requires Text.IsDigit(c)
    ensures d < 10 && Digit(d) == c
  {
    c as int - 48
  }

  predicate AllDigits(s: string)
  {
    forall i :: 0 <= i < |s| ==> Text.IsDigit(s[i])
  }

  /** Shortest decimal text of a natural number: at least one digit, no leading zero. */
  function FromNat(n: nat): (r: string)
    ensures |r| >= 1 && AllDigits(r)
    ensures r[0] == '0' ==> n == 0
    decreases n
  {
    if n < 10 then [Digit(n)] else FromNat(n / 10) + [Digit(n % 10)]
  }

  /** The number a non-empty run of digits denotes. */
  function ValueOf(s: string): nat
    requires AllDigits(s)
    decreases |s|
  {
    if s == "" then 0 else ValueOf(s[..|s| - 1]) * 10 + DigitValue(s[|s| - 1])
  }

  lemma {:induction false} ValueOfFromNat(n: nat)
    ensures ValueOf(FromNat(n)) == n
    decreases n
  {
    if n >= 10 {
      var r := FromNat(n);
      assert r[..|r| - 1] == FromNat(n / 10);
      ValueOfFromNat(n / 10);
    }
  }

  /** `String(i)` for an integral number: a minus sign before negative values. */
  function FromInt(i: int): (r: string)
    ensures |r| >= 1
    ensures i >= 0 <==> r[0] != '-'
  {
    if i < 0 then "-" + FromNat(-i) else FromNat(i)
  }

  /** Reads an optionally signed run of digits; `None` for any other text. */
  function Parse(s: string): Option<int>
  {
    if |s| >= 2 && s[0] == '-' && AllDigits(s[1..]) then Some(-(ValueOf(s[1..]) as int))
    else if |s| >= 1 && AllDigits(s) then Some(ValueOf(s))
    else None
  }

  /** Printing an integer and reading the text back yields the same integer. */
  lemma ParseFromInt(i: int)
    ensures Parse(FromInt(i)) == Some(i)
  {
    var r := FromInt(i);
    if i < 0 {
      assert r[1..] == FromNat(-i);
      ValueOfFromNat(-i);
    } else {
      ValueOfFromNat(i);
      assert !(|r| >= 2 && r[0] == '-');
    }
  }

  /** Left-pads with zeros to at least `width` characters (dayjs' `YYYY`, `MM`, `DD`). */
  function PadZeros(s: string, width: nat): (r: string)
    ensures |r| == if |s| >= width then |s| else width
    ensures r[|r| - |s|..] == s
    ensures forall i :: 0 <= i < |r| - |s| ==> r[i] == '0'
  {
    if |s| >= width then s else Zeros(width - |s|) + s
  }

  /** `n` zero digits. */
  function Zeros(n: nat): (z: string)
    ensures |z| == n && forall i :: 0 <= i < n ==> z[i] == '0'
  {
    seq(n, _ => '0')
  }
}

=== FILE: effects.dfy ===
/**
 * What a handler does, as an ordered list of observable effects: storage
 * writes, outgoing requests (with the `Authorization` header they carry),
 * user-visible notices, navigations, loading-flag changes and callbacks.
 * The session a handler leaves behind is the replay of its storage effects.
 */
module Effects {
  import opened Js
  import opened Session

  datatype Level = Info | Success | Warning | Error

  datatype Effect =
    | Storage(op: StorageOp)
      /** An HTTP request; `authorization` is the `Authorization` header actually sent. */
    | Request(verb: string, path: string, authorization: Option<string>)
      /** `message.info/success/warning/error(text)`. */
    | Notice(level: Level, text: string)
      /** react-router `navigate(path)` or `<Navigate to={path}/>`. */
    | Navigate(path: string)
      /** `window.location.href = path`. */
    | Assign(path: string)
      /** `setTimeout(() => window.location.href = path, delayMs)`. */
    | AssignAfter(path: string, delayMs: nat)
      /** `setLoading(on)`. */
    | Loading(on: bool)
      /** `form.resetFields()`. */
    | ResetForm
      /** A callback passed in by the parent component, such as `onSuccess` or `onClose`. */
    | Callback(name: string)
      /** `alert(text)`. */
    | Alert(text: string)

  /** The session after one effect: only storage effects change it. */
  function Step(s: Session, e: Effect): Session
  {
    if e.Storage? then Apply(s, e.op) else s
  }

  /** The session after a whole list of effects, in order; only storage effects move it. */
  function Replay(s: Session, effs: seq<Effect>): (r: Session)
    ensures (forall i :: 0 <= i < |effs| ==> !effs[i].Storage?) ==> r == s
    decreases |effs|
  {
    if effs == [] then s
    else
      assert forall i :: 0 <= i < |effs[1..]| ==> effs[1..][i] == effs[i + 1];
      Replay(Step(s, effs[0]), effs[1..])
  }

  /** Replaying two lists one after the other is replaying their concatenation. */
  lemma {:induction false} ReplayAppend(s: Session, a: seq<Effect>, b: seq<Effect>)
    ensures Replay(s, a + b) == Replay(Replay(s, a), b)
    decreases |a|
  {
    if a != [] {
      assert (a + b)[0] == a[0];
      assert (a + b)[1..] == a[1..] + b;
      ReplayAppend(Step(s, a[0]), a[1..], b);
    } else {
      assert a + b == b;
    }
  }

  /** Replaying a one-element list is one step. */
  lemma ReplayOne(s: Session, e: Effect)
    ensures Replay(s, [e]) == Step(s, e)
  {
    assert [e][1..] == [];
  }

  /** Effect `e` writes or removes storage key `k`. */
  predicate Touches(e: Effect, k: string)
  {
    e.Storage? && e.op.key == k
  }

  /** No effect of the list writes or removes key `k`. */
  predicate Untouched(effs: seq<Effect>, k: string)
  {
    forall i :: 0 <= i < |effs| ==> !Touches(effs[i], k)
  }

  /** A key no effect writes keeps its value across the whole list. */
  lemma {:induction false} ReplayKeepsUntouched(s: Session, effs: seq<Effect>, k: string)
    requires Untouched(effs, k)
    ensures GetItem(Replay(s, effs), k) == GetItem(s, k)
    decreases |effs|
  {
    if effs != [] {
      assert !Touches(effs[0], k);
      ReplayKeepsUntouched(Step(s, effs[0]), effs[1..], k);
    }
  }

  /** A list without storage effects leaves the session as it was. */
  lemma ReplayWithoutStorage(s: Session, effs: seq<Effect>)
    requires forall i :: 0 <= i < |effs| ==> !effs[i].Storage?
    ensures Replay(s, effs) == s
  {
    ReplayKeepsUntouched(s, effs, TokenKey);
    ReplayKeepsUntouched(s, effs, UserTypeKey);
  }
}

=== FILE: formdata.dfy ===
/**
 * Files picked in an upload control and the `FormData` entries the
 * forms build from them and from the form's values.
 */
module FormData {
  import opened Js

  /** A browser `File`: its name and MIME type (`file.type`). */
  datatype FileObj = FileObj(name: string, mime: string)

  /** An entry of an upload control's list; `originFileObj` is missing for entries that were
      not picked from disk. */
  datatype UploadFile = UploadFile(uid: string, url: Option<string>, originFileObj: Option<FileObj>)

  /** A form value as `Object.entries(values)` yields it. */
  datatype FormValue =
    | TextValue(text: string)
    | NumberValue(number: int)
    | ArrayValue(items: seq<FormValue>)
    | ObjectValue
    | Undefined

  /** One `formData.append(key, value)`: a file, a text, or `JSON.stringify(value)`. */
  datatype Part =
    | FilePart(key: string, file: FileObj)
    | TextPart(key: string, text: string)
    | JsonPart(key: string, value: FormValue)

  /** `formData.append(key, file.originFileObj)`: a missing file is converted to the text
      "undefined", as `FormData` converts every non-`Blob` value with `String(...)`. */
  function AppendFile(key: string, f: UploadFile): (p: Part)
    ensures p.key == key
    ensures p.FilePart? <==> f.originFileObj.Some?
    ensures p.FilePart? ==> p.file == f.originFileObj.value
    ensures p.TextPart? ==> p.text == "undefined"
  {
    match f.originFileObj
    case Some(o) => FilePart(key, o)
    case None => TextPart(key, "undefined")
  }
}

=== FILE: guard.dfy ===
/**
 * `ProtectedRoute`: the render-or-redirect decision taken from the stored
 * token and user type and the route's list of allowed roles.
 */
module Guard {
  import opened Js
  import opened Session

  const LoginPath := "/login"

  /** The only two outcomes of the guard. */
  datatype Decision = Render | Redirect(to: string)

  /** The role the guard compares: `userType || ""`. */
  function RoleOf(s: Session): string
  {
    Or(s.userType, "")
  }

  /** `ProtectedRoute` with `allowedRoles` (which defaults to the empty list). It only reads the
      session; its result is a decision, never a new session. */
  function Decide(s: Session, allowedRoles: seq<string>): (d: Decision)
    ensures d.Redirect? ==> d.to == LoginPath
    ensures d == Render <==> Truthy(s.token) && (|allowedRoles| == 0 || RoleOf(s) in allowedRoles)
  {
    if !Truthy(s.token) then Redirect(LoginPath)
    else if |allowedRoles| > 0 && RoleOf(s) !in allowedRoles then Redirect(LoginPath)
    else Render
  }

  /** A missing or empty token redirects to /login whatever the role list. */
  lemma NoTokenRedirects(s: Session, allowedRoles: seq<string>)
    requires !Truthy(s.token)
    ensures Decide(s, allowedRoles) == Redirect(LoginPath)
  {
  }

  /** With a token and no role list the view renders whatever `userType` is stored. */
  lemma EmptyRolesRenderAnyUserType(token: string, userType: Option<string>)
    requires token != ""
    ensures Decide(Session(Some(token), userType), []) == Render
  {
  }

  /** With a token and a non-empty list, the view renders iff the stored user type is an exact,
      case-sensitive member of the list. */
  lemma RoleMembershipDecides(token: string, userType: string, allowedRoles: seq<string>)
    requires token != "" && userType != "" && |allowedRoles| > 0
    ensures Decide(Session(Some(token), Some(userType)), allowedRoles) == Render <==> userType in allowedRoles
  {
  }

  /** A missing user type counts as "": it is turned away unless "" itself is allowed. */
  lemma MissingUserTypeIsEmpty(token: string, allowedRoles: seq<string>)
    requires token != "" && |allowedRoles| > 0
    ensures Decide(Session(Some(token), None), allowedRoles) == Render <==> "" in allowedRoles
  {
  }

  /** Unauthenticated and unauthorised requests land on the same page: any refusal is /login. */
  lemma RefusalsShareTarget(s1: Session, r1: seq<string>, s2: Session, r2: seq<string>)
    requires Decide(s1, r1).Redirect? && Decide(s2, r2).Redirect?
    ensures Decide(s1, r1) == Decide(s2, r2)
  {
  }
}

=== FILE: http.dfy ===
/**
 * The axios clients and their interceptors. Every client attaches
 * `Authorization: Bearer <token>` when the stored token is truthy; the
 * `authService` and `apiService` clients also react to a 401 response by
 * clearing the token, showing a notice and scheduling a redirect to the
 * login page, and still reject the call to its caller.
 */
module Http {
  import opened Js
  import opened Session
  import opened Effects

  const AuthorizationHeader := "Authorization"
  const LoginPath := "/login"
  const UnauthorizedDelayMs: nat := 1000
  const SessionExpiredText := "Session expired. Redirecting to login..."

  /** The axios instances of the console, by the interceptors they install. */
  datatype Client =
    | AuthApi   // `apiAuth` of authService: bearer request interceptor and 401 response interceptor
    | MainApi   // `api` of apiService: the same two interceptors
    | PlainApi  // `api`/`apiAuth` of productService and `api` of amenityService: bearer request interceptor only

  predicate HandlesUnauthorized(c: Client)
  {
    c == AuthApi || c == MainApi
  }

  /** `Bearer ${t}` for a token as read from storage. */
  function Bearer(t: Option<string>): string
  {
    "Bearer " + Interpolate(t)
  }

  /** The request interceptor: with a truthy token the `Authorization` header is
      (over)written with the bearer value; otherwise the headers pass through unchanged. */
  function AttachBearer(s: Session, headers: map<string, string>): (r: map<string, string>)
    ensures r.Keys == headers.Keys + (if Truthy(GetAuthToken(s)) then {AuthorizationHeader} else {})
    ensures forall k :: k in headers && k != AuthorizationHeader ==> k in r && r[k] == headers[k]
    ensures Truthy(GetAuthToken(s)) ==> r[AuthorizationHeader] == Bearer(GetAuthToken(s))
    ensures !Truthy(GetAuthToken(s)) ==> r == headers
  {
    if Truthy(GetAuthToken(s)) then headers[AuthorizationHeader := Bearer(GetAuthToken(s))] else headers
  }

  /** The `Authorization` header a request carries on the wire. */
  function SentAuthorization(s: Session, explicit: map<string, string>): Option<string>
  {
    var h := AttachBearer(s, explicit);
    if AuthorizationHeader in h then Some(h[AuthorizationHeader]) else None
  }

  /** Headers built by a call site itself: `{ Authorization: `Bearer ${token}` }`. */
  function ExplicitBearer(s: Session): map<string, string>
  {
    map[AuthorizationHeader := Bearer(GetAuthToken(s))]
  }

  /** A call without its own headers carries a bearer header exactly when the token is truthy,
      and then it carries that token. */
  lemma PlainCallAuthorization(s: Session)
    ensures SentAuthorization(s, map[]).Some? <==> Truthy(GetAuthToken(s))
    ensures Truthy(GetAuthToken(s)) ==> SentAuthorization(s, map[]) == Some("Bearer " + GetAuthToken(s).value)
  {
  }

  /** A call that builds its own header sends `Bearer ${token}` whatever the token is: the
      interceptor only overrides it with the same text. With nothing stored that is the literal
      "Bearer null", and with an empty token it is "Bearer ". */
  lemma ExplicitCallAuthorization(s: Session)
    ensures SentAuthorization(s, ExplicitBearer(s)) == Some(Bearer(GetAuthToken(s)))
    ensures GetAuthToken(s) == None ==> SentAuthorization(s, ExplicitBearer(s)) == Some("Bearer null")
    ensures GetAuthToken(s) == Some("") ==> SentAuthorization(s, ExplicitBearer(s)) == Some("Bearer ")
  {
    assert "Bearer " + "null" == "Bearer null";
    assert "Bearer " + "" == "Bearer ";
  }

  /** What a failed call exposes: `error.response?.status` and `error.response?.data?.error`. */
  datatype HttpError = HttpError(status: Option<int>, serverError: Option<string>)

  datatype Response<D> = Response(status: int, data: D)

  /** What the server (or the network) answers to one request. */
  datatype Reply<D> = Resolved(response: Response<D>) | Rejected(error: HttpError)

  /** A settled promise as the caller sees it. */
  datatype Settled<T> = Fulfilled(value: T) | Failed(error: HttpError)

  predicate IsUnauthorized(e: HttpError)
  {
    e.status == Some(401)
  }

  /** `handleUnauthorized()`: a notice, the token removed, and a redirect to /login after 1000 ms. */
  function HandleUnauthorized(): (effs: seq<Effect>)
    ensures AssignAfter(LoginPath, UnauthorizedDelayMs) in effs
    ensures Notice(Error, SessionExpiredText) in effs
  {
    [Notice(Error, SessionExpiredText), Storage(RemoveItem(TokenKey)), AssignAfter(LoginPath, UnauthorizedDelayMs)]
  }

  /** The session after `handleUnauthorized()` is the session with its token cleared. */
  lemma UnauthorizedClearsToken(s: Session)
    ensures Replay(s, HandleUnauthorized()) == ClearAuthToken(s)
  {
    var effs := HandleUnauthorized();
    assert effs[1..][1..][1..] == [];
  }

  /** The effects of the response interceptor of client `c` on `reply`. */
  function Intercept<D>(c: Client, reply: Reply<D>): (effs: seq<Effect>)
    ensures effs != [] <==> HandlesUnauthorized(c) && reply.Rejected? && IsUnauthorized(reply.error)
    ensures effs != [] ==> AssignAfter(LoginPath, UnauthorizedDelayMs) in effs
    ensures forall i :: 0 <= i < |effs| ==> !Touches(effs[i], UserTypeKey)
  {
    if HandlesUnauthorized(c) && reply.Rejected? && IsUnauthorized(reply.error) then HandleUnauthorized() else []
  }

  /** `.then((res) => res.data)`: a resolved call yields the response body, a rejected call its error. */
  function Data<D>(reply: Reply<D>): Settled<D>
  {
    match reply
    case Resolved(res) => Fulfilled(res.data)
    case Rejected(e) => Failed(e)
  }

  /** The effects and the settled result of one call. */
  datatype Call<T> = Call(effects: seq<Effect>, result: Settled<T>)

  /** One request through client `c`: the request goes out with the header the interceptor
      leaves, the response interceptor runs, and the caller gets the body or the unchanged error.
      Only a 401 through a client with the 401 handler changes the session; the error is still
      rejected to the caller. The client layer never routes: its only redirect is the delayed
      page assignment of the 401 handler. */
  function Invoke<D>(c: Client, s: Session, verb: string, path: string,
                     explicit: map<string, string>, reply: Reply<D>): (r: Call<D>)
    ensures |r.effects| >= 1 && r.effects[0] == Request(verb, path, SentAuthorization(s, explicit))
    ensures reply.Resolved? ==> r.result == Fulfilled(reply.response.data)
    ensures reply.Rejected? ==> r.result == Failed(reply.error)
    ensures HandlesUnauthorized(c) && reply.Rejected? && IsUnauthorized(reply.error) ==>
      Replay(s, r.effects) == ClearAuthToken(s) && AssignAfter(LoginPath, UnauthorizedDelayMs) in r.effects
    ensures !(HandlesUnauthorized(c) && reply.Rejected? && IsUnauthorized(reply.error)) ==>
      r.effects == [r.effects[0]] && Replay(s, r.effects) == s
    ensures forall x :: x in r.effects ==> !x.Navigate? && !x.Assign?
  {
    var effs := [Request(verb, path, SentAuthorization(s, explicit))] + Intercept(c, reply);
    assert effs[1..] == Intercept(c, reply);
    UnauthorizedClearsToken(s);
    Call(effs, Data(reply))
  }
}

=== FILE: js.dfy ===
/**
 * The few JavaScript value semantics the console's code relies on:
 * values that may be `null`/`undefined`, truthiness of strings, the `||`
 * fallback, and what a template literal prints for a missing value.
 */
module Js {

  /** A value that may be absent (`null` or `undefined` in the source). */
  datatype Option<+T> = None | Some(value: T)

  /** JavaScript truthiness of a possibly absent string: `null` and `""` are falsy. */
  predicate Truthy(s: Option<string>)
  {
    s.Some? && s.value != ""
  }

  /** `s || fallback` where `s` is a possibly absent string. */
  function Or(s: Option<string>, fallback: string): (r: string)
    ensures Truthy(s) ==> r == s.value
    ensures !Truthy(s) ==> r == fallback
  {
    if Truthy(s) then s.value else fallback
  }

  /** What `${s}` prints inside a template literal when `s` comes from
      `localStorage.getItem`: the stored text, or "null" when nothing is stored. */
  function Interpolate(s: Option<string>): (r: string)
    ensures s.Some? ==> r == s.value
    ensures s.None? ==> r == "null"
  {
    match s
    case None => "null"
    case Some(v) => v
  }
}

=== FILE: layout.dfy ===
/**
 * `MainLayout`: the logout confirmation flow, the landowner-only menu
 * entry and the account tag in the header.
 */
module Layout {
  import opened Js
  import opened Session
  import opened Effects
  import opened Http
  import opened Services

  const SignedOutText := "You have been signed out."
  const CancelledText := "Sign-out canceled."
  const Landowner := "LANDOWNER"

  /** `handleLogout` after the user answers the confirmation dialog (`confirmed`), given the
      server's answer to the sign-out post. The `onOk` handler removes the token and navigates to
      /login whether `signOut()` resolves or rejects; `onCancel` only shows a notice. */
  function HandleLogout(s: Session, confirmed: bool, reply: Reply<()>): (effs: seq<Effect>)
    ensures confirmed ==> Storage(RemoveItem(TokenKey)) in effs && effs[|effs| - 1] == Navigate(LoginPath)
    ensures !confirmed ==> forall i :: 0 <= i < |effs| ==> effs[i].Notice? && effs[i].level == Info
  {
    if !confirmed then [Notice(Info, CancelledText)]
    else SignOut(s, reply).effects + AfterSignOut()
  }

  /** What `onOk` does after `await signOut()`, in both its `try` and its `catch` branch. */
  function AfterSignOut(): seq<Effect>
  {
    [Storage(RemoveItem(TokenKey)), Notice(Success, SignedOutText), Navigate(LoginPath)]
  }

  lemma AfterSignOutClearsToken(s: Session)
    ensures Replay(s, AfterSignOut()) == ClearAuthToken(s)
  {
    var tail := AfterSignOut();
    assert tail == [Storage(RemoveItem(TokenKey))] + tail[1..];
    ReplayAppend(s, [Storage(RemoveItem(TokenKey))], tail[1..]);
    ReplayOne(s, Storage(RemoveItem(TokenKey)));
    ReplayWithoutStorage(ClearAuthToken(s), tail[1..]);
  }

  /** A confirmed logout ends with the token gone and a navigation to /login, whatever the
      sign-out call answered; `userType` is never removed. */
  lemma ConfirmedLogout(s: Session, reply: Reply<()>)
    ensures var effs := HandleLogout(s, true, reply);
      && Replay(s, effs) == Session(None, s.userType)
      && effs[|effs| - 1] == Navigate(LoginPath)
  {
    var so := SignOut(s, reply).effects;
    ReplayAppend(s, so, AfterSignOut());
    AfterSignOutClearsToken(Replay(s, so));
  }

  /** Logout never removes `userType`: no effect of any logout path touches that key. */
  lemma LogoutKeepsUserType(s: Session, confirmed: bool, reply: Reply<()>)
    ensures Untouched(HandleLogout(s, confirmed, reply), UserTypeKey)
    ensures Replay(s, HandleLogout(s, confirmed, reply)).userType == s.userType
  {
    var effs := HandleLogout(s, confirmed, reply);
    if confirmed {
      var call := Invoke(AuthApi, s, "POST", SignoutPath, map[], reply);
      assert forall i :: 0 <= i < |call.effects| ==> !Touches(call.effects[i], UserTypeKey) by {
        assert call.effects == [call.effects[0]] || call.effects == [call.effects[0]] + HandleUnauthorized();
      }
    }
    ReplayKeepsUntouched(s, effs, UserTypeKey);
  }

  /** A cancelled logout changes no storage and does not navigate. */
  lemma CancelledLogout(s: Session, reply: Reply<()>)
    ensures Replay(s, HandleLogout(s, false, reply)) == s
    ensures HandleLogout(s, false, reply) == [Notice(Info, CancelledText)]
  {
    ReplayOne(s, Notice(Info, CancelledText));
  }

  /** `isLandowner`: the stored user type is exactly "LANDOWNER". */
  predicate IsLandowner(userType: Option<string>)
  {
    userType == Some(Landowner)
  }

  /** The sidebar entries, in order; "Amentics" appears only for a landowner. */
  function MenuItems(userType: Option<string>): (items: seq<string>)
    ensures "amentics" in items <==> IsLandowner(userType)
    ensures |items| >= 4 && items[..2] == ["dashboard", "marketplace"] && items[|items| - 2..] == ["profile", "logout"]
  {
    ["dashboard", "marketplace"] + (if IsLandowner(userType) then ["amentics"] else []) + ["profile", "logout"]
  }

  /** The header tag: the stored user type followed by " Account" ("null Account" when none). */
  function HeaderTag(userType: Option<string>): (r: string)
    ensures userType.Some? ==> r == userType.value + " Account"
    ensures userType.None? ==> r == "null Account"
  {
    Interpolate(userType) + " " + "Account"
  }
}

=== FILE: lists.dfy ===
/**
 * `Array.prototype.filter` and the subsequence relation it establishes.
 */
module Lists {

  /** `xs.filter(keep)`: the elements satisfying `keep`, in their original order. */
  function Keep<T(==,!new)>(xs: seq<T>, keep: T -> bool): (r: seq<T>)
    ensures |r| <= |xs|
    ensures forall i :: 0 <= i < |r| ==> r[i] in xs && keep(r[i])
    ensures forall i :: 0 <= i < |xs| && keep(xs[i]) ==> xs[i] in r
    ensures forall x :: multiset(r)[x] == if keep(x) then multiset(xs)[x] else 0
    decreases |xs|
  {
    if xs == [] then []
    else
      assert xs == [xs[0]] + xs[1..];
      if keep(xs[0]) then [xs[0]] + Keep(xs[1..], keep)
      else Keep(xs[1..], keep)
  }

  /** `a` can be obtained from `b` by deleting elements. */
  predicate IsSubsequence<T(==)>(a: seq<T>, b: seq<T>)
    decreases |b|
  {
    if a == [] then true
    else if b == [] then false
    else if a[0] == b[0] then IsSubsequence(a[1..], b[1..])
    else IsSubsequence(a, b[1..])
  }

  /** A filtered list is a subsequence of the list it was filtered from: order is preserved. */
  lemma {:induction false} KeepIsSubsequence<T(!new)>(xs: seq<T>, keep: T -> bool)
    ensures IsSubsequence(Keep(xs, keep), xs)
    decreases |xs|
  {
    if xs != [] {
      KeepIsSubsequence(xs[1..], keep);
      if keep(xs[0]) {
        assert Keep(xs, keep)[1..] == Keep(xs[1..], keep);
      }
    }
  }

  /** Dropping the head of a subsequence keeps it a subsequence. */
  lemma {:induction false} SubsequenceDropHead<T>(a: seq<T>, b: seq<T>)
    requires a != [] && IsSubsequence(a, b)
    ensures IsSubsequence(a[1..], b)
    decreases |b|, 0
  {
    if a[0] == b[0] {
      SubsequenceWeaken(a[1..], b[1..], b[0]);
    } else {
      SubsequenceDropHead(a, b[1..]);
      SubsequenceWeaken(a[1..], b[1..], b[0]);
    }
  }

  /** A subsequence of a list's tail is a subsequence of the list. */
  lemma {:induction false} SubsequenceWeaken<T>(a: seq<T>, tail: seq<T>, x: T)
    requires IsSubsequence(a, tail)
    ensures IsSubsequence(a, [x] + tail)
    decreases |tail|, 1
  {
    var b := [x] + tail;
    assert b[1..] == tail;
    if a != [] && a[0] == x {
      SubsequenceDropHead(a, tail);
    }
  }

  /** Filtering twice by the same test is filtering once. */
  lemma {:induction false} KeepIdempotent<T(!new)>(xs: seq<T>, keep: T -> bool)
    ensures Keep(Keep(xs, keep), keep) == Keep(xs, keep)
    decreases |xs|
  {
    if xs != [] {
      KeepIdempotent(xs[1..], keep);
      if keep(xs[0]) {
        var r := Keep(xs, keep);
        assert r[0] == xs[0] && r[1..] == Keep(xs[1..], keep);
      }
    }
  }

  /** A test every element passes keeps the whole list. */
  lemma {:induction false} KeepAll<T(!new)>(xs: seq<T>, keep: T -> bool)
    requires forall i :: 0 <= i < |xs| ==> keep(xs[i])
    ensures Keep(xs, keep) == xs
    decreases |xs|
  {
    if xs != [] {
      KeepAll(xs[1..], keep);
    }
  }

  /** Two tests that agree on every element keep the same elements. */
  lemma {:induction false} KeepCongruent<T(!new)>(xs: seq<T>, f: T -> bool, g: T -> bool)
    requires forall i :: 0 <= i < |xs| ==> f(xs[i]) == g(xs[i])
    ensures Keep(xs, f) == Keep(xs, g)
    decreases |xs|
  {
    if xs != [] {
      KeepCongruent(xs[1..], f, g);
    }
  }
}

=== FILE: login.dfy ===
/**
 * The login form's `onFinish`: sign in, store the access token, verify
 * it, and on a verification response with user attributes store the
 * user type and go to the dashboard.
 */
module Login {
  import opened Js
  import opened Session
  import opened Effects
  import opened Http
  import opened Services
  import opened Attributes

  const UserTypeAttribute := "custom:userType"
  const DashboardPath := "/dashboard"
  const LoginFailedText := "Login failed. Please try again."
  const VerifyFailedText := "Token verification failed. Please login again."
  const LoginSucceededText := "Login successful!"

  /** The sign-in response body: `AuthenticationResult.AccessToken`, or `None` when
      `AuthenticationResult` is missing (reading it then throws). */
  datatype SigninBody = SigninBody(accessToken: Option<string>)

  /** The verification response body: its `UserAttributes`, `None` when absent. */
  datatype VerifyBody = VerifyBody(userAttributes: Option<seq<Attribute>>)

  /** What happens once verification answered, starting from the session holding the new token. */
  function AfterVerify(verified: Settled<VerifyBody>): (effs: seq<Effect>)
    ensures Navigate(DashboardPath) in effs <==> verified.Fulfilled? && verified.value.userAttributes.Some?
    ensures Storage(RemoveItem(TokenKey)) in effs <==> verified.Fulfilled? && verified.value.userAttributes.None?
    ensures forall i :: 0 <= i < |effs| ==> !Touches(effs[i], TokenKey) || effs[i] == Storage(RemoveItem(TokenKey))
  {
    match verified
    case Failed(_) => [Notice(Error, LoginFailedText)]
    case Fulfilled(body) =>
      match body.userAttributes
      case None => [Notice(Error, VerifyFailedText), Storage(RemoveItem(TokenKey))]
      case Some(attrs) =>
        (match FindValue(attrs, UserTypeAttribute)
         case None => []
         case Some(v) => [Storage(SetItem(UserTypeKey, v))])
        + [Notice(Success, LoginSucceededText), Navigate(DashboardPath)]
  }

  /** Everything from the sign-in call up to (not including) the `finally` block. */
  function Attempt(s: Session, signin: Reply<SigninBody>, verify: Reply<VerifyBody>): (effs: seq<Effect>)
    ensures Navigate(DashboardPath) in effs ==> signin.Resolved? && verify.Resolved?
    ensures forall i :: 0 <= i < |effs| && effs[i].Navigate? ==> effs[i].path == DashboardPath
  {
    var call := SignIn(s, signin);
    match call.result
    case Failed(_) => call.effects + [Notice(Error, LoginFailedText)]
    case Fulfilled(body) =>
      match body.accessToken
      case None => call.effects + [Notice(Error, LoginFailedText)]
      case Some(t) =>
        var v := VerifyToken(SetAuthToken(s, t), verify);
        call.effects + [Storage(SetItem(TokenKey, t))] + v.effects + AfterVerify(v.result)
  }

  /** `onFinish(values)`, given what the server answers to the two calls. */
  function OnFinish(s: Session, signin: Reply<SigninBody>, verify: Reply<VerifyBody>): (effs: seq<Effect>)
    ensures |effs| >= 2 && effs[0] == Loading(true) && effs[|effs| - 1] == Loading(false)
  {
    [Loading(true)] + Attempt(s, signin, verify) + [Loading(false)]
  }

  /** The session `OnFinish` leaves equals the session before the `finally` block. */
  lemma OnFinishSession(s: Session, signin: Reply<SigninBody>, verify: Reply<VerifyBody>)
    ensures Replay(s, OnFinish(s, signin, verify)) == Replay(s, Attempt(s, signin, verify))
  {
    var a := Attempt(s, signin, verify);
    ReplayAppend(s, [Loading(true)], a);
    ReplayAppend(s, [Loading(true)] + a, [Loading(false)]);
    assert Replay(s, [Loading(true)]) == s by { assert [Loading(true)][1..] == []; }
    ReplayWithoutStorage(Replay(s, a), [Loading(false)]);
  }

  /** The token is written to storage before the verification request goes out, and that
      request carries it: the storage write precedes the request, and for a non-empty token the
      request's header is `Bearer <token>`. */
  lemma TokenStoredBeforeVerify(s: Session, t: string, verify: Reply<VerifyBody>)
    ensures var effs := OnFinish(s, Resolved(Response(200, SigninBody(Some(t)))), verify);
      exists i, j :: 0 <= i < j < |effs|
        && effs[i] == Storage(SetItem(TokenKey, t))
        && effs[j] == Request("POST", VerifyTokenPath, SentAuthorization(SetAuthToken(s, t), map[]))
    ensures t != "" ==> SentAuthorization(SetAuthToken(s, t), map[]) == Some("Bearer " + t)
  {
    var signin: Reply<SigninBody> := Resolved(Response(200, SigninBody(Some(t))));
    var call := SignIn(s, signin);
    var v := VerifyToken(SetAuthToken(s, t), verify);
    var effs := OnFinish(s, signin, verify);
    var i := 1 + |call.effects|;
    assert effs == [Loading(true)] + (call.effects + [Storage(SetItem(TokenKey, t))] + v.effects + AfterVerify(v.result)) + [Loading(false)];
    assert effs[i] == Storage(SetItem(TokenKey, t));
    assert effs[i + 1] == v.effects[0];
    PlainCallAuthorization(SetAuthToken(s, t));
  }

  /** Once sign-in returned token `t`, the session left is what verification and its
      aftermath make of the session holding `t`. */
  lemma TokenPathSession(s: Session, t: string, verify: Reply<VerifyBody>)
    ensures var v := VerifyToken(SetAuthToken(s, t), verify);
      Replay(s, OnFinish(s, Resolved(Response(200, SigninBody(Some(t)))), verify))
        == Replay(Replay(SetAuthToken(s, t), v.effects), AfterVerify(v.result))
  {
    var signin: Reply<SigninBody> := Resolved(Response(200, SigninBody(Some(t))));
    var call := SignIn(s, signin);
    var s1 := SetAuthToken(s, t);
    var v := VerifyToken(s1, verify);
    var after := AfterVerify(v.result);
    var head := call.effects + [Storage(SetItem(TokenKey, t))];
    OnFinishSession(s, signin, verify);
    ReplayAppend(s, call.effects, [Storage(SetItem(TokenKey, t))]);
    ReplayOne(s, Storage(SetItem(TokenKey, t)));
    ReplayAppend(s, head, v.effects);
    ReplayAppend(s, head + v.effects, after);
  }

  /** A verification response with `UserAttributes` keeps the new token, stores the first
      `custom:userType` value (or leaves `userType` as it was when there is none) and goes to
      the dashboard. */
  lemma VerifiedLogin(s: Session, t: string, attrs: seq<Attribute>)
    ensures var effs := OnFinish(s, Resolved(Response(200, SigninBody(Some(t)))),
                                    Resolved(Response(200, VerifyBody(Some(attrs)))));
      && Replay(s, effs) == Session(Some(t), if FindValue(attrs, UserTypeAttribute).Some? then FindValue(attrs, UserTypeAttribute) else s.userType)
      && Navigate(DashboardPath) in effs
  {
    var verify: Reply<VerifyBody> := Resolved(Response(200, VerifyBody(Some(attrs))));
    var s1 := SetAuthToken(s, t);
    var v := VerifyToken(s1, verify);
    var after := AfterVerify(v.result);
    TokenPathSession(s, t, verify);
    var tail := [Notice(Success, LoginSucceededText), Navigate(DashboardPath)];
    match FindValue(attrs, UserTypeAttribute)
    case None =>
      assert after == tail;
      ReplayWithoutStorage(s1, tail);
    case Some(u) =>
      assert after == [Storage(SetItem(UserTypeKey, u))] + tail;
      ReplayAppend(s1, [Storage(SetItem(UserTypeKey, u))], tail);
      ReplayOne(s1, Storage(SetItem(UserTypeKey, u)));
      ReplayWithoutStorage(Apply(s1, SetItem(UserTypeKey, u)), tail);
    var effs := OnFinish(s, Resolved(Response(200, SigninBody(Some(t)))), verify);
    assert effs[|effs| - 2] == Navigate(DashboardPath);
  }

  /** A verification response without `UserAttributes` removes the token again, leaves
      `userType` alone and does not navigate. */
  lemma UnverifiedLogin(s: Session, t: string)
    ensures var effs := OnFinish(s, Resolved(Response(200, SigninBody(Some(t)))),
                                    Resolved(Response(200, VerifyBody(None))));
      && Replay(s, effs) == Session(None, s.userType)
      && forall e :: e in effs ==> !e.Navigate?
  {
    var verify: Reply<VerifyBody> := Resolved(Response(200, VerifyBody(None)));
    var s1 := SetAuthToken(s, t);
    var v := VerifyToken(s1, verify);
    TokenPathSession(s, t, verify);
    var after := AfterVerify(v.result);
    assert after == [Notice(Error, VerifyFailedText)] + [Storage(RemoveItem(TokenKey))];
    ReplayAppend(s1, [Notice(Error, VerifyFailedText)], [Storage(RemoveItem(TokenKey))]);
    ReplayOne(s1, Notice(Error, VerifyFailedText));
    ReplayOne(s1, Storage(RemoveItem(TokenKey)));
  }

  /** A verification that fails with anything but 401 lands in the `catch` block, which touches no
      storage: the token already written survives and there is no navigation. */
  lemma FailedVerifyKeepsToken(s: Session, t: string, e: HttpError)
    requires !IsUnauthorized(e)
    ensures var effs := OnFinish(s, Resolved(Response(200, SigninBody(Some(t)))), Rejected(e));
      && Replay(s, effs) == SetAuthToken(s, t)
      && forall x :: x in effs ==> !x.Navigate?
  {
    var s1 := SetAuthToken(s, t);
    var v := VerifyToken(s1, Rejected(e));
    TokenPathSession(s, t, Rejected(e));
    ReplayWithoutStorage(s1, AfterVerify(v.result));
  }

  /** A 401 on verification goes through the 401 handler: the token written a moment before is
      cleared again, but the dashboard is never reached. */
  lemma UnauthorizedVerifyClearsToken(s: Session, t: string, e: HttpError)
    requires IsUnauthorized(e)
    ensures var effs := OnFinish(s, Resolved(Response(200, SigninBody(Some(t)))), Rejected(e));
      && Replay(s, effs) == Session(None, s.userType)
      && forall x :: x in effs ==> !x.Navigate?
  {
    var signin: Reply<SigninBody> := Resolved(Response(200, SigninBody(Some(t))));
    var s1 := SetAuthToken(s, t);
    var call := SignIn(s, signin);
    var v := VerifyToken(s1, Rejected(e));
    var after := AfterVerify(v.result);
    assert after == [Notice(Error, LoginFailedText)];
    TokenPathSession(s, t, Rejected(e));
    assert Replay(s1, v.effects) == ClearAuthToken(s1);
    ReplayWithoutStorage(ClearAuthToken(s1), after);
    var effs := OnFinish(s, signin, Rejected(e));
    assert effs == [Loading(true)] + (call.effects + [Storage(SetItem(TokenKey, t))] + v.effects + after) + [Loading(false)];
    assert call.effects == [Request("POST", SigninPath, SentAuthorization(s, map[]))];
    assert forall x :: x in v.effects ==> !x.Navigate?;
  }

  /** ... and the redirect to /login that the 401 handler schedules is among the effects. */
  lemma UnauthorizedVerifySchedulesRedirect(s: Session, t: string, e: HttpError)
    requires IsUnauthorized(e)
    ensures AssignAfter(LoginPath, UnauthorizedDelayMs)
      in OnFinish(s, Resolved(Response(200, SigninBody(Some(t)))), Rejected(e))
  {
    var signin: Reply<SigninBody> := Resolved(Response(200, SigninBody(Some(t))));
    var s1 := SetAuthToken(s, t);
    var call := SignIn(s, signin);
    var v := VerifyToken(s1, Rejected(e));
    var effs := OnFinish(s, signin, Rejected(e));
    assert effs == [Loading(true)] + (call.effects + [Storage(SetItem(TokenKey, t))] + v.effects + AfterVerify(v.result)) + [Loading(false)];
    assert AssignAfter(LoginPath, UnauthorizedDelayMs) in v.effects;
  }

  /** A sign-in that fails (other than with 401), or whose body lacks `AuthenticationResult`,
      changes no storage and does not navigate. */
  lemma FailedSigninKeepsSession(s: Session, signin: Reply<SigninBody>, verify: Reply<VerifyBody>)
    requires signin.Rejected? ==> !IsUnauthorized(signin.error)
    requires signin.Resolved? ==> signin.response.data.accessToken.None?
    ensures Replay(s, OnFinish(s, signin, verify)) == s
    ensures forall x :: x in OnFinish(s, signin, verify) ==> !x.Navigate?
  {
    var call := SignIn(s, signin);
    OnFinishSession(s, signin, verify);
    ReplayAppend(s, call.effects, [Notice(Error, LoginFailedText)]);
    ReplayOne(s, Notice(Error, LoginFailedText));
  }
}

=== FILE: marketplace.dfy ===
/**
 * The marketplace views: the property list (search, location filter,
 * sort dispatch, description truncation, required investment, landowner
 * controls) and the product details page (main and small images,
 * desired-amenity matching, contacting the owner).
 */
module Marketplace {
  import opened Js
  import opened Text
  import opened Lists
  import opened Session
  import opened Effects
  import opened Http
  import opened Services
  import Layout

  /** One product as the list and details endpoints return it. */
  datatype Product = Product(
    id: int,
    name: string,
    description: string,
    locationType: Option<string>,
    price: int,
    collectedAmount: int,
    imageUrls: Option<seq<string>>,
    desiredAmenities: seq<int>)

  datatype Amenity = Amenity(id: int, name: string, imageUrl: string)

  /** `product_owner_information`. */
  datatype Owner = Owner(firstName: string, lastName: string, email: Option<string>)

  // ---- PropertyList: search by name or description ----

  /** The lower-cased name or description contains the lower-cased term. */
  predicate MatchesTerm(p: Product, term: string)
  {
    Includes(ToLower(p.name), ToLower(term)) || Includes(ToLower(p.description), ToLower(term))
  }

  /** The list `handleSearch(value)` leaves: an empty term leaves the current list as it is;
      otherwise exactly the matching products are kept, in their order. */
  function SearchResult(products: seq<Product>, term: string): (r: seq<Product>)
    ensures term == "" ==> r == products
    ensures term != "" ==> forall i :: 0 <= i < |r| ==> MatchesTerm(r[i], term)
    ensures term != "" ==> forall i :: 0 <= i < |products| ==> (products[i] in r <==> MatchesTerm(products[i], term))
    ensures term != "" ==> forall p :: multiset(r)[p] == if MatchesTerm(p, term) then multiset(products)[p] else 0
  {
    if term == "" then products else Keep(products, p => MatchesTerm(p, term))
  }

  /** `handleSearch(value)`: an empty term also raises a leftover debugging alert. */
  function HandleSearch(products: seq<Product>, term: string): (r: (seq<Effect>, seq<Product>))
    ensures r.1 == SearchResult(products, term)
    ensures r.0 == [] <==> term != ""
    ensures term == "" ==> r.0 == [Alert("ggkgkg")]
  {
    (if term == "" then [Alert("ggkgkg")] else [], SearchResult(products, term))
  }

  /** Searching only ever narrows the list it is given, keeping the order. */
  lemma SearchNarrows(products: seq<Product>, term: string)
    ensures IsSubsequence(SearchResult(products, term), products)
  {
    if term == "" {
      KeepAll(products, _ => true);
      KeepIsSubsequence(products, _ => true);
    } else {
      KeepIsSubsequence(products, p => MatchesTerm(p, term));
    }
  }

  /** Because the search filters the current list, repeating the same search changes nothing. */
  lemma SearchTwice(products: seq<Product>, term: string)
    ensures SearchResult(SearchResult(products, term), term) == SearchResult(products, term)
  {
    if term != "" {
      KeepIdempotent(products, p => MatchesTerm(p, term));
    }
  }

  /** The search ignores letter case in the term. */
  lemma SearchIgnoresCase(products: seq<Product>, term: string)
    ensures SearchResult(products, ToLower(term)) == SearchResult(products, term)
  {
    ToLowerIdempotent(term);
    if term != "" {
      assert ToLower(term) != "";
      KeepCongruent(products, p => MatchesTerm(p, ToLower(term)), p => MatchesTerm(p, term));
    }
  }

  // ---- PropertyList: location filter ----

  /** `product.location_type ?? ""`. */
  function LocationOf(p: Product): string
  {
    match p.locationType
    case None => ""
    case Some(l) => l
  }

  predicate MatchesLocation(p: Product, value: string)
  {
    Includes(ToLower(LocationOf(p)), ToLower(value))
  }

  /** `handleSearchLocation(value)`: the products whose location type contains the value,
      ignoring case; a product without a location type only survives the empty value. */
  function HandleSearchLocation(products: seq<Product>, value: string): (r: seq<Product>)
    ensures forall i :: 0 <= i < |r| ==> MatchesLocation(r[i], value)
    ensures forall i :: 0 <= i < |products| && MatchesLocation(products[i], value) ==> products[i] in r
    ensures forall p :: multiset(r)[p] == if MatchesLocation(p, value) then multiset(products)[p] else 0
    ensures IsSubsequence(r, products)
  {
    KeepIsSubsequence(products, p => MatchesLocation(p, value));
    Keep(products, p => MatchesLocation(p, value))
  }

  /** The empty value keeps every product, including those without a location type. */
  lemma EmptyLocationKeepsAll(products: seq<Product>)
    ensures HandleSearchLocation(products, "") == products
  {
    forall i | 0 <= i < |products|
      ensures MatchesLocation(products[i], "")
    {
      IncludesEmpty(ToLower(LocationOf(products[i])));
    }
    KeepAll(products, p => MatchesLocation(p, ""));
  }

  /** A product without a location type is dropped by every non-empty value. */
  lemma MissingLocationDropped(p: Product, value: string)
    requires p.locationType.None? && value != ""
    ensures !MatchesLocation(p, value)
  {
  }

  // ---- PropertyList: sorting ----

  /** Which endpoint a sort choice loads, and which body field holds the list. */
  datatype Listing = Listing(path: string, field: string)

  /** `handleSortChange(value)`. */
  function SortListing(value: string): (l: Listing)
    ensures l.path == SortedAscPath <==> value == "price-asc"
    ensures l.path == SortedDescPath <==> value == "price-desc"
    ensures l.path == ProductListPath <==> value != "price-asc" && value != "price-desc"
    ensures l.field == (if l.path == ProductListPath then "products" else "product")
  {
    if value == "price-asc" then Listing(SortedAscPath, "product")
    else if value == "price-desc" then Listing(SortedDescPath, "product")
    else Listing(ProductListPath, "products")
  }

  /** `response.data.<field> || []`: a missing list shows as empty. */
  function ListedProducts(body: Option<seq<Product>>): (r: seq<Product>)
    ensures body.Some? ==> r == body.value
    ensures body.None? ==> r == []
  {
    match body
    case None => []
    case Some(ps) => ps
  }

  // ---- PropertyList: per-card rendering ----

  const DescriptionLimit: nat := 350

  /** The description shown on a card: verbatim up to 350 characters, otherwise its first 350
      characters followed by "...". The shown text never exceeds 353 characters. */
  function CardDescription(d: string): (r: string)
    ensures |r| <= DescriptionLimit + 3
    ensures |d| <= DescriptionLimit ==> r == d
    ensures |d| > DescriptionLimit ==> r == d[..DescriptionLimit] + "..."
  {
    Truncate(d, DescriptionLimit, DescriptionLimit)
  }

  /** "Required investment" on a list card and on the details page, and "Still to be
      contributed" on the details page: what remains once the collected amount is counted. */
  function RequiredInvestment(p: Product): (r: int)
    ensures r + p.collectedAmount == p.price
    ensures p.collectedAmount >= p.price <==> r <= 0
  {
    p.price - p.collectedAmount
  }

  /** The "Add New Marketplace" and "Delete" controls are shown exactly to a stored "LANDOWNER". */
  predicate ShowLandownerControls(userType: Option<string>)
  {
    Layout.IsLandowner(userType)
  }

  lemma LandownerControlsExact(userType: Option<string>)
    ensures ShowLandownerControls(userType) <==> userType == Some("LANDOWNER")
    ensures !ShowLandownerControls(Some("landowner")) && !ShowLandownerControls(None)
  {
  }

  const CardPlaceholder := "https://via.placeholder.com/300"
  const DetailPlaceholder := "https://via.placeholder.com/800x500"

  /** `product.image_urls || []`. */
  function ImageList(p: Product): seq<string>
  {
    match p.imageUrls
    case None => []
    case Some(urls) => urls
  }

  /** The carousel of a list card: the image URLs, or the single placeholder when there are none. */
  function CarouselImages(p: Product): (r: seq<string>)
    ensures |r| >= 1
    ensures |ImageList(p)| > 0 ==> r == ImageList(p)
    ensures |ImageList(p)| == 0 ==> r == [CardPlaceholder]
  {
    if |ImageList(p)| > 0 then ImageList(p) else [CardPlaceholder]
  }

  // ---- ProductDetails ----

  /** The large image: the first URL, or the placeholder when the list is empty or missing. */
  function MainImage(p: Product): (r: string)
    ensures |ImageList(p)| > 0 ==> r == ImageList(p)[0]
    ensures |ImageList(p)| == 0 ==> r == DetailPlaceholder
  {
    var urls := ImageList(p);
    if |urls| > 0 then urls[0] else DetailPlaceholder
  }

  /** `imageUrls.slice(1, 5)`: at most four small images, taken from the positions after the
      main image, in order. */
  function SmallImages(p: Product): (r: seq<string>)
    ensures |r| <= 4
    ensures |r| == if |ImageList(p)| <= 1 then 0 else if |ImageList(p)| >= 5 then 4 else |ImageList(p)| - 1
    ensures forall i :: 0 <= i < |r| ==> r[i] == ImageList(p)[i + 1]
  {
    var urls := ImageList(p);
    if |urls| <= 1 then [] else urls[1..if |urls| < 5 then |urls| else 5]
  }

  /** The main image followed by the small images is a prefix of the image list. */
  lemma ImagesArePrefix(p: Product)
    requires |ImageList(p)| > 0
    ensures [MainImage(p)] + SmallImages(p) <= ImageList(p)
  {
  }

  /** The first fetched amenity with this id (`amenities.find((a) => a.id === id)`). */
  function FindAmenity(fetched: seq<Amenity>, id: int): (r: Option<Amenity>)
    ensures r.Some? ==> r.value in fetched && r.value.id == id
    ensures r.None? <==> forall j :: 0 <= j < |fetched| ==> fetched[j].id != id
  {
    if fetched == [] then None
    else if fetched[0].id == id then Some(fetched[0])
    else FindAmenity(fetched[1..], id)
  }

  /** The desired ids that have a fetched amenity, in desired order. */
  function MatchedIds(desired: seq<int>, fetched: seq<Amenity>): seq<int>
  {
    Keep(desired, id => FindAmenity(fetched, id).Some?)
  }

  /** The amenity cards of the details page: for each desired id with a match, the first
      fetched amenity with that id; unmatched ids are skipped. */
  function RenderedAmenities(desired: seq<int>, fetched: seq<Amenity>): (r: seq<Amenity>)
    ensures |r| == |MatchedIds(desired, fetched)| && |r| <= |desired|
    ensures forall i :: 0 <= i < |r| ==> Some(r[i]) == FindAmenity(fetched, MatchedIds(desired, fetched)[i])
    decreases |desired|
  {
    if desired == [] then []
    else
      var rest := RenderedAmenities(desired[1..], fetched);
      MatchedIdsStep(desired, fetched);
      match FindAmenity(fetched, desired[0])
      case None => rest
      case Some(a) =>
        var m := MatchedIds(desired, fetched);
        assert m[1..] == MatchedIds(desired[1..], fetched);
        [a] + rest
  }

  /** One step of the matched ids: the head is kept exactly when it has a match. */
  lemma MatchedIdsStep(desired: seq<int>, fetched: seq<Amenity>)
    requires desired != []
    ensures MatchedIds(desired, fetched)
         == (if FindAmenity(fetched, desired[0]).Some? then [desired[0]] else []) + MatchedIds(desired[1..], fetched)
  {
  }

  /** A desired id gets a card exactly when some fetched amenity has that id. */
  lemma RenderedIffMatched(desired: seq<int>, fetched: seq<Amenity>, id: int)
    requires id in desired
    ensures (exists a :: a in RenderedAmenities(desired, fetched) && a.id == id)
        <==> (exists j :: 0 <= j < |fetched| && fetched[j].id == id)
  {
    var r := RenderedAmenities(desired, fetched);
    var m := MatchedIds(desired, fetched);
    if exists j :: 0 <= j < |fetched| && fetched[j].id == id {
      var k :| 0 <= k < |desired| && desired[k] == id;
      assert FindAmenity(fetched, desired[k]).Some?;
      assert id in m;
      var i :| 0 <= i < |m| && m[i] == id;
      assert r[i] in r && r[i].id == id;
    }
    if exists a :: a in r && a.id == id {
      var a :| a in r && a.id == id;
      assert a in fetched;
      var j :| 0 <= j < |fetched| && fetched[j] == a;
    }
  }

  /** The "Desired Amenities" section: the fallback text only when no amenity is desired; a
      product whose desired ids all fail to match shows an empty row instead. */
  datatype AmenitySection = NoAmenitiesText | Cards(cards: seq<Amenity>)

  function AmenitiesSection(p: Product, fetched: seq<Amenity>): (r: AmenitySection)
    ensures r.NoAmenitiesText? <==> |p.desiredAmenities| == 0
    ensures r.Cards? ==> r.cards == RenderedAmenities(p.desiredAmenities, fetched)
  {
    if |p.desiredAmenities| > 0 then Cards(RenderedAmenities(p.desiredAmenities, fetched)) else NoAmenitiesText
  }

  /** The body `contactOwner` posts. */
  datatype ContactPayload = ContactPayload(message: string, recipientEmail: string, productId: int)

  const OwnerEmailMissingText := "Owner email not found."
  const MessageSentText := "Message sent successfully!"
  const MessageFailedText := "Failed to send message. Please try again."

  /** The result of `handleSendMessage`: effects, the payload sent (if any) and whether the
      message modal is still open. */
  datatype SendResult = SendResult(effects: seq<Effect>, sent: Option<ContactPayload>, modalOpen: bool)

  /** `handleSendMessage({ message })` with the owner as loaded and the modal's current state. */
  function HandleSendMessage<D>(s: Session, owner: Option<Owner>, productId: int, text: string,
                                modalOpen: bool, reply: Reply<D>): (r: SendResult)
    ensures !(owner.Some? && Truthy(owner.value.email)) ==>
      r == SendResult([Notice(Error, OwnerEmailMissingText)], None, modalOpen)
    ensures owner.Some? && Truthy(owner.value.email) ==>
      r.sent == Some(ContactPayload(text, owner.value.email.value, productId))
    ensures r.modalOpen == (modalOpen && !(r.sent.Some? && reply.Resolved?))
    ensures ResetForm in r.effects <==> r.sent.Some? && reply.Resolved?
    ensures Replay(s, r.effects) == s
  {
    if !(owner.Some? && Truthy(owner.value.email)) then
      ReplayOne(s, Notice(Error, OwnerEmailMissingText));
      SendResult([Notice(Error, OwnerEmailMissingText)], None, modalOpen)
    else
      var payload := ContactPayload(text, owner.value.email.value, productId);
      var call := OwnHeaderCall(s, "POST", ContactOwnerPath, reply);
      var after := if reply.Resolved? then [Notice(Success, MessageSentText), ResetForm]
                   else [Notice(Error, MessageFailedText)];
      ReplayAppend(s, call.effects, after);
      ReplayWithoutStorage(s, after);
      SendResult(call.effects + after, Some(payload), modalOpen && !reply.Resolved?)
  }
}

=== FILE: profile.dfy ===
/**
 * The two profile views: the read-only profile page and the update form.
 * Both fetch the profile with the stored token in the request body and
 * read Cognito-style attributes through the same first-match lookup, with
 * different fallbacks.
 */
module Profile {
  import opened Js
  import opened Session
  import opened Effects
  import opened Http
  import opened Attributes
  import Signup

  /** `{ Username, UserAttributes }` as /auth/get-profile returns it. */
  datatype UserProfile = UserProfile(username: string, attributes: seq<Attribute>)

  /** `profile?.UserAttributes.find((attr) => attr.Name === name)?.Value || fallback`; the
      update form falls back to "", the profile page to "N/A". */
  function AttributeValue(profile: Option<UserProfile>, name: string, fallback: string): (r: string)
    ensures profile.None? ==> r == fallback
    ensures profile.Some? ==> r == Or(FindValue(profile.value.attributes, name), fallback)
    ensures r != fallback ==> profile.Some? && FindValue(profile.value.attributes, name) == Some(r)
  {
    match profile
    case None => fallback
    case Some(p) => Or(FindValue(p.attributes, name), fallback)
  }

  /** The two views show the same text for an attribute exactly when that attribute has a
      non-empty value; otherwise the form shows "" and the page "N/A". */
  lemma ViewsAgreeOnPresentValues(profile: Option<UserProfile>, name: string)
    ensures AttributeValue(profile, name, "") == AttributeValue(profile, name, "N/A")
        <==> profile.Some? && Truthy(FindValue(profile.value.attributes, name))
    ensures AttributeValue(profile, name, "") == "" ==> AttributeValue(profile, name, "N/A") == "N/A"
  {
  }

  /** The page title: the user name, or "N/A" without a profile or with an empty name. */
  function DisplayName(profile: Option<UserProfile>): (r: string)
    ensures r == "N/A" || (profile.Some? && r == profile.value.username)
    ensures profile.Some? && profile.value.username != "" ==> r == profile.value.username
  {
    match profile
    case None => "N/A"
    case Some(p) => Or(Some(p.username), "N/A")
  }

  const RoleAttribute := "custom:userType"
  const CountryAttribute := "custom:country"

  /** The attributes the profile page lists, in display order. */
  const PageFields: seq<string> := ["email", "address", "family_name", "given_name", "gender", "birthdate", CountryAttribute]

  /** What the profile page shows: the title, the role tag, then one text per listed attribute. */
  datatype Page = Page(title: string, role: string, fields: seq<string>)

  function ProfilePage(profile: Option<UserProfile>): (pg: Page)
    ensures pg.title == DisplayName(profile)
    ensures pg.role == AttributeValue(profile, RoleAttribute, "N/A")
    ensures |pg.fields| == |PageFields|
    ensures forall i :: 0 <= i < |PageFields| ==> pg.fields[i] == AttributeValue(profile, PageFields[i], "N/A")
  {
    Page(DisplayName(profile), AttributeValue(profile, RoleAttribute, "N/A"),
         seq(|PageFields|, i requires 0 <= i < |PageFields| => AttributeValue(profile, PageFields[i], "N/A")))
  }

  /** Before the profile arrives (or when the fetch failed) every text on the page is "N/A". */
  lemma EmptyPageIsNotApplicable()
    ensures var pg := ProfilePage(None);
      pg.title == "N/A" && pg.role == "N/A" && forall i :: 0 <= i < |pg.fields| ==> pg.fields[i] == "N/A"
  {
  }

  // ---- fetching ----

  const GetProfilePath := "/auth/get-profile"
  const FetchFailedText := "Failed to fetch profile data"

  /** `fetchProfile()` in both views: without a truthy token `getProfile` throws before any
      request; otherwise it posts the token in the body on a client with no interceptors, so no
      `Authorization` header is sent and a 401 is just another failure. A failure shows a notice
      only where `message` is imported (`canNotify`): the profile page uses it without importing
      it, so its catch block throws and only the `finally` block runs. */
  function FetchProfile(s: Session, reply: Reply<UserProfile>, canNotify: bool): (r: (seq<Effect>, Option<UserProfile>))
    ensures |r.0| >= 2 && r.0[0] == Loading(true) && r.0[|r.0| - 1] == Loading(false)
    ensures Request("POST", GetProfilePath, None) in r.0 <==> Truthy(GetAuthToken(s))
    ensures r.1.Some? <==> Truthy(GetAuthToken(s)) && reply.Resolved?
    ensures r.1.Some? ==> r.1.value == reply.response.data
    ensures Notice(Error, FetchFailedText) in r.0 <==> canNotify && r.1.None?
    ensures Replay(s, r.0) == s
  {
    var failure := if canNotify then [Notice(Error, FetchFailedText)] else [];
    var effs :=
      if !Truthy(GetAuthToken(s)) then [Loading(true)] + failure + [Loading(false)]
      else if reply.Resolved? then [Loading(true), Request("POST", GetProfilePath, None), Loading(false)]
      else [Loading(true), Request("POST", GetProfilePath, None)] + failure + [Loading(false)];
    ReplayWithoutStorage(s, effs);
    (effs, if Truthy(GetAuthToken(s)) && reply.Resolved? then Some(reply.response.data) else None)
  }

  // ---- the update form ----

  /** The update form's fields; `birthdate` is the text handed to `dayjs`. */
  datatype ProfileForm = ProfileForm(
    username: string, email: string, familyName: string, givenName: string,
    address: string, gender: string, birthdate: string, country: string)

  /** Every attribute field of `f` holds what the first attribute of that name in `source` holds,
      or "" when there is none or it is empty. */
  predicate FieldsFrom(f: ProfileForm, source: Option<UserProfile>)
  {
    && f.email == AttributeValue(source, "email", "")
    && f.familyName == AttributeValue(source, "family_name", "")
    && f.givenName == AttributeValue(source, "given_name", "")
    && f.address == AttributeValue(source, "address", "")
    && f.gender == AttributeValue(source, "gender", "")
    && f.birthdate == AttributeValue(source, "birthdate", "")
    && f.country == AttributeValue(source, CountryAttribute, "")
  }

  /** `form.setFieldsValue(...)` with the user name from `username` and every attribute looked up
      in `source`. */
  function FormFrom(username: string, source: Option<UserProfile>): ProfileForm
  {
    ProfileForm(username,
      AttributeValue(source, "email", ""),
      AttributeValue(source, "family_name", ""),
      AttributeValue(source, "given_name", ""),
      AttributeValue(source, "address", ""),
      AttributeValue(source, "gender", ""),
      AttributeValue(source, "birthdate", ""),
      AttributeValue(source, CountryAttribute, ""))
  }

  /** `populateForm(data)` as the code stands: it takes the user name from `data` but looks every
      attribute up through `getAttributeValue`, which reads the `profile` state of the render that
      started the fetch (`stale`). On mount that state is still `null`. */
  function PopulateFormAsWritten(stale: Option<UserProfile>, data: UserProfile): (f: ProfileForm)
    ensures f.username == data.username
    ensures FieldsFrom(f, stale)
  {
    FormFrom(data.username, stale)
  }

  /** On mount, whatever the server sent, every field but the user name is left blank. */
  lemma PopulateAsWrittenBlanks(data: UserProfile)
    ensures PopulateFormAsWritten(None, data) == ProfileForm(data.username, "", "", "", "", "", "", "")
  {
  }

  /** `populateForm(data)` as evidently intended: every field read from the fetched profile. */
  function PopulateForm(data: UserProfile): (f: ProfileForm)
    ensures f.username == data.username
    ensures FieldsFrom(f, Some(data))
  {
    FormFrom(data.username, Some(data))
  }

  /** With the intended version a field is blank only when the profile has no non-empty value for
      it: a present e-mail always reaches the form. */
  lemma PopulateKeepsPresentValues(data: UserProfile, email: string)
    requires FindValue(data.attributes, "email") == Some(email) && email != ""
    ensures PopulateForm(data).email == email
    ensures PopulateFormAsWritten(None, data).email == ""
  {
  }

  /** The form field that holds the attribute shown at position `i` of the profile page. */
  function FormFieldAt(f: ProfileForm, i: nat): string
    requires i < |PageFields|
  {
    match i
    case 0 => f.email
    case 1 => f.address
    case 2 => f.familyName
    case 3 => f.givenName
    case 4 => f.gender
    case 5 => f.birthdate
    case _ => f.country
  }

  /** At one position of the profile page the intended form agrees with the page exactly when the
      attribute has a non-empty value, and otherwise shows "" where the page shows "N/A". */
  lemma PageFieldMatches(data: UserProfile, i: nat)
    requires i < |PageFields|
    ensures var f := PopulateForm(data);
      var pg := ProfilePage(Some(data));
      && (FormFieldAt(f, i) == pg.fields[i] <==> Truthy(FindValue(data.attributes, PageFields[i])))
      && (FormFieldAt(f, i) != pg.fields[i] ==> FormFieldAt(f, i) == "" && pg.fields[i] == "N/A")
  {
    var f := PopulateForm(data);
    assert FormFieldAt(f, i) == AttributeValue(Some(data), PageFields[i], "");
    assert ProfilePage(Some(data)).fields[i] == AttributeValue(Some(data), PageFields[i], "N/A");
    ViewsAgreeOnPresentValues(Some(data), PageFields[i]);
  }

  /** For every attribute the profile page lists, the intended form shows what the page shows,
      except that a missing or empty value is "" rather than "N/A". */
  lemma PopulateMatchesPage(data: UserProfile)
    ensures var f := PopulateForm(data);
      var pg := ProfilePage(Some(data));
      && (pg.fields[0] == "N/A" || f.email == pg.fields[0])
      && (pg.fields[6] == "N/A" || f.country == pg.fields[6])
      && (f.email == "" <==> pg.fields[0] == "N/A" && !Truthy(FindValue(data.attributes, "email")))
    ensures var f := PopulateForm(data);
      var pg := ProfilePage(Some(data));
      forall i :: 0 <= i < |PageFields| ==>
        && (FormFieldAt(f, i) == pg.fields[i] <==> Truthy(FindValue(data.attributes, PageFields[i])))
        && (FormFieldAt(f, i) != pg.fields[i] ==> FormFieldAt(f, i) == "" && pg.fields[i] == "N/A")
  {
    forall i | 0 <= i < |PageFields| {
      PageFieldMatches(data, i);
    }
    ViewsAgreeOnPresentValues(Some(data), "email");
    ViewsAgreeOnPresentValues(Some(data), CountryAttribute);
  }

  /** The two versions agree exactly when the stale state already is the fetched profile. */
  lemma PopulateVersionsAgree(data: UserProfile)
    ensures PopulateFormAsWritten(Some(data), data) == PopulateForm(data)
  {
  }

  /** The values the update form submits. */
  datatype UpdateValues = UpdateValues(
    email: string, familyName: string, givenName: string, address: string,
    gender: string, birthdate: Option<Signup.Date>, country: string)

  /** The update body: every value except the user name, the birth date as "YYYY-MM-DD". */
  datatype UpdatePayload = UpdatePayload(
    email: string, familyName: string, givenName: string, address: string,
    gender: string, birthdate: string, country: string)

  /** The body built from the values; `None` when the birth date was cleared, where
      `values.birthdate.format(...)` throws. */
  function UpdateBody(v: UpdateValues): (p: Option<UpdatePayload>)
    ensures p.Some? <==> v.birthdate.Some?
    ensures p.Some? ==>
      && p.value.email == v.email && p.value.familyName == v.familyName
      && p.value.givenName == v.givenName && p.value.address == v.address
      && p.value.gender == v.gender && p.value.country == v.country
      && p.value.birthdate == Signup.FormatDate(v.birthdate.value)
  {
    match v.birthdate
    case None => None
    case Some(d) => Some(UpdatePayload(v.email, v.familyName, v.givenName, v.address, v.gender,
                                       Signup.FormatDate(d), v.country))
  }

  /** The submitted birth date reads back as the date picked. */
  lemma UpdateBodyDate(v: UpdateValues)
    requires v.birthdate.Some? && Signup.Formattable(v.birthdate.value)
    ensures Signup.ParseDate(UpdateBody(v).value.birthdate) == v.birthdate
  {
    Signup.ParseFormatDate(v.birthdate.value);
  }

  const UpdatedText := "Profile updated successfully!"
  const UpdateFailedText := "Failed to update profile"

  /** The update form's state after a submission: notices shown and whether it is still editable. */
  datatype Submitted = Submitted(effects: seq<Effect>, editing: bool)

  /** `onFinish(values)` as the code stands: `profileService` defines only `getProfile`, so
      `profileService.updateProfile(...)` throws before any request and the catch block runs. */
  function OnFinishAsWritten(editing: bool, v: UpdateValues): (r: Submitted)
    ensures r.editing == editing
    ensures Notice(Success, UpdatedText) !in r.effects
  {
    Submitted([Notice(Error, UpdateFailedText)], editing)
  }

  /** `onFinish(values)` as evidently intended, with `outcome` the settled update call: success
      shows the notice and disables the form; any failure, including a cleared birth date,
      leaves the form editable. */
  function OnFinish(editing: bool, v: UpdateValues, outcome: Settled<()>): (r: Submitted)
    ensures !r.editing <==> !editing || (UpdateBody(v).Some? && outcome.Fulfilled?)
    ensures r.effects == [Notice(Success, UpdatedText)] <==> UpdateBody(v).Some? && outcome.Fulfilled?
    ensures |r.effects| == 1
  {
    if UpdateBody(v).Some? && outcome.Fulfilled? then Submitted([Notice(Success, UpdatedText)], false)
    else Submitted([Notice(Error, UpdateFailedText)], editing)
  }

  /** The two versions differ exactly on a successful update: the code as written reports that
      update as a failure and keeps the form editable. */
  lemma UpdateVersionsDiffer(v: UpdateValues, outcome: Settled<()>)
    ensures OnFinishAsWritten(true, v) == OnFinish(true, v, outcome)
        <==> !(UpdateBody(v).Some? && outcome.Fulfilled?)
  {
  }

  /** `disabled={!editing}`. */
  predicate FormDisabled(editing: bool)
  {
    !editing
  }

  /** As written the form can never be disabled by a submission: it starts editable and stays so.
      As intended one successful submission disables it. */
  lemma EditingAfterSubmission(v: UpdateValues)
    ensures !FormDisabled(OnFinishAsWritten(true, v).editing)
    ensures v.birthdate.Some? ==> FormDisabled(OnFinish(true, v, Fulfilled(())).editing)
  {
  }
}

=== FILE: routes.dfy ===
/**
 * `AppRoutes`: the static route table (path pattern, view, and the role
 * list of the `ProtectedRoute` wrapping it, if any) and navigation
 * through it.
 */
module Routes {
  import opened Js
  import opened Session
  import opened Guard

  datatype View =
    | LoginView | SignupView | DashboardView | MarketplaceView | AddMarketplaceView
    | ProductDetailsView | AmenticsView | ProfileView | UpdateProfileView

  /** One `<Route>`; `allowedRoles` is `None` when the element is not wrapped in `ProtectedRoute`. */
  datatype Route = Route(path: string, view: View, allowedRoles: Option<seq<string>>)

  /** What navigating to a path shows. */
  datatype Navigation = NoMatch | Shown(view: View) | Redirected(to: string)

  /** The role list every protected route passes, as written. */
  const RouteRoles: seq<string> := ["INVESTOR", "LANDOWNER", "Scout"]

  /** The role values the sign-up form offers. */
  const SignupRoles: seq<string> := ["INVESTOR", "LANDOWNER", "SCOUT"]

  /** The route table with every protected route given the role list `roles`. */
  function Table(roles: seq<string>): (t: seq<Route>)
    ensures |t| == 10
    ensures forall i :: 0 <= i < |t| ==> t[i].allowedRoles == if i < 3 then None else Some(roles)
  {
    [ Route("/", LoginView, None),
      Route("/login", LoginView, None),
      Route("/signup", SignupView, None),
      Route("/dashboard", DashboardView, Some(roles)),
      Route("/marketplace", MarketplaceView, Some(roles)),
      Route("/addmarketplace", AddMarketplaceView, Some(roles)),
      Route("/product/:id", ProductDetailsView, Some(roles)),
      Route("/amentics", AmenticsView, Some(roles)),
      Route("/profile", ProfileView, Some(roles)),
      Route("/updateprofile", UpdateProfileView, Some(roles)) ]
  }

  /** The table as written: every protected route admits "Scout" but not the sign-up spelling
      "SCOUT". */
  function AppRoutes(): (t: seq<Route>)
    ensures forall i :: 0 <= i < |t| && t[i].allowedRoles.Some? ==>
      "Scout" in t[i].allowedRoles.value && "SCOUT" !in t[i].allowedRoles.value
  {
    assert "SCOUT" !in RouteRoles;
    Table(RouteRoles)
  }

  /** The table with the role spelled as sign-up stores it. */
  function AppRoutesIntended(): seq<Route>
  {
    Table(SignupRoles)
  }

  /** The first route whose pattern is `path`. */
  function Find(routes: seq<Route>, path: string): (r: Option<Route>)
    ensures r.Some? ==> r.value in routes && r.value.path == path
    ensures r.None? ==> forall i :: 0 <= i < |routes| ==> routes[i].path != path
  {
    if routes == [] then None
    else if routes[0].path == path then Some(routes[0])
    else Find(routes[1..], path)
  }

  /** Showing one route: unguarded routes always render, guarded ones ask the guard. */
  function Visit(s: Session, r: Route): (n: Navigation)
    ensures n != NoMatch
    ensures r.allowedRoles.None? ==> n == Shown(r.view)
    ensures r.allowedRoles.Some? ==>
      (n == Shown(r.view) <==> Decide(s, r.allowedRoles.value) == Render)
    ensures n.Redirected? ==> n.to == LoginPath
  {
    match r.allowedRoles
    case None => Shown(r.view)
    case Some(roles) =>
      match Decide(s, roles)
      case Render => Shown(r.view)
      case Redirect(to) => Redirected(to)
  }

  /** Navigating to `path` with the session `s`. */
  function Navigate(s: Session, routes: seq<Route>, path: string): (n: Navigation)
    ensures n == NoMatch <==> forall i :: 0 <= i < |routes| ==> routes[i].path != path
    ensures n.Redirected? ==> n.to == LoginPath
  {
    match Find(routes, path)
    case None => NoMatch
    case Some(r) => Visit(s, r)
  }

  /** "/", "/login" and "/signup" render for any session; "/" and "/login" show the same view. */
  lemma PublicRoutes(s: Session)
    ensures Navigate(s, AppRoutes(), "/") == Shown(LoginView)
    ensures Navigate(s, AppRoutes(), "/login") == Shown(LoginView)
    ensures Navigate(s, AppRoutes(), "/signup") == Shown(SignupView)
  {
  }

  /** The table has three public routes followed by seven protected ones, all of which use the
      same role list. */
  lemma ProtectedRoutesShareRoles()
    ensures |AppRoutes()| == 10
    ensures forall i :: 0 <= i < |AppRoutes()| ==> (AppRoutes()[i].allowedRoles.Some? <==> i >= 3)
    ensures forall r :: r in AppRoutes() && r.allowedRoles.Some? ==> r.allowedRoles == Some(RouteRoles)
  {
  }

  /** Without a truthy token, no protected route is shown. */
  lemma NoTokenNoProtectedView(s: Session, r: Route)
    requires !Truthy(s.token)
    requires r in AppRoutes() && r.allowedRoles.Some?
    ensures Visit(s, r) == Redirected(LoginPath)
  {
  }

  /** A user stored as "SCOUT" — the value the sign-up form offers — is sent to /login by every
      protected route, whatever the token. */
  lemma UppercaseScoutLockedOut(s: Session, r: Route)
    requires s.userType == Some("SCOUT")
    requires r in AppRoutes() && r.allowedRoles.Some?
    ensures Visit(s, r) == Redirected(LoginPath)
  {
    assert "SCOUT" !in RouteRoles;
  }

  /** With the sign-up spelling in the table, every role sign-up offers reaches every protected route. */
  lemma SignupRolesAdmittedWhenIntended(s: Session, r: Route)
    requires Truthy(s.token) && s.userType.Some? && s.userType.value in SignupRoles
    requires r in AppRoutesIntended() && r.allowedRoles.Some?
    ensures Visit(s, r) == Shown(r.view)
  {
  }

  /** No two routes of a table share a path pattern. */
  lemma TablePathsDistinct(roles: seq<string>)
    ensures forall i, j :: 0 <= i < j < |Table(roles)| ==> Table(roles)[i].path != Table(roles)[j].path
  {
  }

  /** In a table whose paths are distinct, a route is found by its own path. */
  lemma {:induction false} FindOwnPath(routes: seq<Route>, i: nat)
    requires i < |routes|
    requires forall j :: 0 <= j < i ==> routes[j].path != routes[i].path
    ensures Find(routes, routes[i].path) == Some(routes[i])
  {
    if i > 0 {
      assert routes[0].path != routes[i].path;
      assert routes[1..][i - 1] == routes[i];
      FindOwnPath(routes[1..], i - 1);
    }
  }

  /** Every route of the table as written is found by its own path. */
  lemma FindTableRoute(i: nat)
    requires i < |AppRoutes()|
    ensures Find(AppRoutes(), AppRoutes()[i].path) == Some(AppRoutes()[i])
  {
    var routes := Table(RouteRoles);
    TablePathsDistinct(RouteRoles);
    assert forall j :: 0 <= j < i ==> routes[j].path != routes[i].path;
    FindOwnPath(routes, i);
  }

  /** The page commented "only landowners can manage amenities" admits a signed-in investor. */
  lemma InvestorReachesAmentics(s: Session)
    requires Truthy(s.token) && s.userType == Some("INVESTOR")
    ensures Navigate(s, AppRoutes(), "/amentics") == Shown(AmenticsView)
  {
    var r := AppRoutes()[7];
    assert r == Route("/amentics", AmenticsView, Some(RouteRoles));
    assert RouteRoles[0] == "INVESTOR";
    assert Decide(s, RouteRoles) == Render;
    FindTableRoute(7);
    assert Navigate(s, AppRoutes(), "/amentics") == Visit(s, r);
  }

  /** The page commented "only landowners can add" admits a signed-in investor. */
  lemma InvestorReachesAddMarketplace(s: Session)
    requires Truthy(s.token) && s.userType == Some("INVESTOR")
    ensures Navigate(s, AppRoutes(), "/addmarketplace") == Shown(AddMarketplaceView)
  {
    var r := AppRoutes()[5];
    assert r == Route("/addmarketplace", AddMarketplaceView, Some(RouteRoles));
    assert RouteRoles[0] == "INVESTOR";
    assert Decide(s, RouteRoles) == Render;
    FindTableRoute(5);
    assert Navigate(s, AppRoutes(), "/addmarketplace") == Visit(s, r);
  }

  /** The page commented "only investors can update" admits a signed-in landowner and "Scout". */
  lemma OthersReachUpdateProfile(s: Session)
    requires Truthy(s.token) && (s.userType == Some("LANDOWNER") || s.userType == Some("Scout"))
    ensures Navigate(s, AppRoutes(), "/updateprofile") == Shown(UpdateProfileView)
  {
    var r := AppRoutes()[9];
    assert r == Route("/updateprofile", UpdateProfileView, Some(RouteRoles));
    assert RouteRoles[1] == "LANDOWNER" && RouteRoles[2] == "Scout";
    assert Decide(s, RouteRoles) == Render;
    FindTableRoute(9);
    assert Navigate(s, AppRoutes(), "/updateprofile") == Visit(s, r);
  }
}

=== FILE: services.dfy ===
/**
 * The service layer: the `authService` calls (sign-in, sign-up, token
 * verification, sign-out), the generic `apiService` wrapper, and the
 * `productService` endpoints, several of which build their own
 * `Authorization` header from whatever the storage holds.
 */
module Services {
  import opened Js
  import opened Session
  import opened Effects
  import opened Http
  import Decimal
  import Text

  // ---- authService ----

  const SigninPath := "/auth/signin"
  const SignupPath := "/auth/signup"
  const VerifyTokenPath := "/auth/verify-token"
  const SignoutPath := "/auth/signout"

  /** `login(username, password)`: resolves to the response body. */
  function SignIn<D>(s: Session, reply: Reply<D>): (r: Call<D>)
    ensures |r.effects| >= 1 && r.effects[0] == Request("POST", SigninPath, SentAuthorization(s, map[]))
    ensures reply.Resolved? ==> r.result == Fulfilled(reply.response.data)
    ensures reply.Rejected? ==> r.result == Failed(reply.error)
    ensures reply.Rejected? && IsUnauthorized(reply.error) ==> Replay(s, r.effects) == ClearAuthToken(s)
  {
    Invoke(AuthApi, s, "POST", SigninPath, map[], reply)
  }

  /** `signup(userData)`: resolves to the response body. */
  function SignUp<D>(s: Session, reply: Reply<D>): (r: Call<D>)
    ensures |r.effects| >= 1 && r.effects[0] == Request("POST", SignupPath, SentAuthorization(s, map[]))
    ensures reply.Resolved? ==> r.result == Fulfilled(reply.response.data)
    ensures reply.Rejected? ==> r.result == Failed(reply.error)
    ensures reply.Rejected? && IsUnauthorized(reply.error) ==> Replay(s, r.effects) == ClearAuthToken(s)
  {
    Invoke(AuthApi, s, "POST", SignupPath, map[], reply)
  }

  /** `verifyToken(token)`: resolves to the response body. */
  function VerifyToken<D>(s: Session, reply: Reply<D>): (r: Call<D>)
    ensures |r.effects| >= 1 && r.effects[0] == Request("POST", VerifyTokenPath, SentAuthorization(s, map[]))
    ensures reply.Resolved? ==> r.result == Fulfilled(reply.response.data)
    ensures reply.Rejected? ==> r.result == Failed(reply.error)
    ensures reply.Rejected? && IsUnauthorized(reply.error) ==> Replay(s, r.effects) == ClearAuthToken(s)
  {
    Invoke(AuthApi, s, "POST", VerifyTokenPath, map[], reply)
  }

  /** The three auth calls resolve to the body of a successful response and reject with the
      unchanged error otherwise; none touches `userType`. */
  lemma AuthCallsResolveToBody<D>(s: Session, reply: Reply<D>)
    ensures reply.Resolved? ==>
      && SignIn(s, reply).result == Fulfilled(reply.response.data)
      && SignUp(s, reply).result == Fulfilled(reply.response.data)
      && VerifyToken(s, reply).result == Fulfilled(reply.response.data)
    ensures reply.Rejected? ==>
      && SignIn(s, reply).result == Failed(reply.error)
      && SignUp(s, reply).result == Failed(reply.error)
      && VerifyToken(s, reply).result == Failed(reply.error)
    ensures Replay(s, SignIn(s, reply).effects).userType == s.userType
  {
  }

  /** `signOut()`: posts the stored token; only when the post succeeds is the token cleared and
      the page sent to /login. A failure is rejected to the caller (after the 401 handler, for a
      401) and otherwise leaves the storage alone. */
  function SignOut(s: Session, reply: Reply<()>): (r: Call<()>)
    ensures |r.effects| >= 1 && r.effects[0] == Request("POST", SignoutPath, SentAuthorization(s, map[]))
    ensures reply.Resolved? ==>
      && r.result.Fulfilled?
      && Replay(s, r.effects) == ClearAuthToken(s)
      && r.effects[|r.effects| - 1] == Assign(LoginPath)
    ensures reply.Rejected? ==> r.result == Failed(reply.error) && Assign(LoginPath) !in r.effects
    ensures reply.Rejected? && !IsUnauthorized(reply.error) ==> Replay(s, r.effects) == s
    ensures Replay(s, r.effects).userType == s.userType
  {
    var call := Invoke(AuthApi, s, "POST", SignoutPath, map[], reply);
    if reply.Resolved? then
      var tail := [Storage(RemoveItem(TokenKey)), Assign(LoginPath)];
      ReplayAppend(s, call.effects, tail);
      assert tail[1..] == [Assign(LoginPath)] && tail[1..][1..] == [];
      assert Replay(s, tail) == Replay(ClearAuthToken(s), tail[1..]);
      assert Replay(ClearAuthToken(s), tail[1..]) == Replay(ClearAuthToken(s), tail[1..][1..]);
      Call(call.effects + tail, Fulfilled(()))
    else
      call
  }

  // ---- apiService ----

  /** `apiService.get/post/put/delete(url, ...)`: every method resolves to `res.data`; a 401
      clears the token and is still rejected; any other failure is rejected unchanged. */
  function ApiService<D>(s: Session, verb: string, url: string, reply: Reply<D>): (r: Call<D>)
    ensures reply.Resolved? ==> r.result == Fulfilled(reply.response.data) && Replay(s, r.effects) == s
    ensures reply.Rejected? ==> r.result == Failed(reply.error)
    ensures reply.Rejected? && IsUnauthorized(reply.error) ==>
      Replay(s, r.effects) == ClearAuthToken(s) && AssignAfter(LoginPath, UnauthorizedDelayMs) in r.effects
    ensures reply.Rejected? && !IsUnauthorized(reply.error) ==> Replay(s, r.effects) == s
  {
    Invoke(MainApi, s, verb, url, map[], reply)
  }

  // ---- productService ----

  const ProductListPath := "/product/list"
  const SortedAscPath := "/product/min-to-max-price"
  const SortedDescPath := "/product/max-to-min-price"
  const PriceRangePath := "/product/price-range"
  const DeleteProductPrefix := "/product/delete/"
  const AddProductPath := "/product/add"
  const ContactOwnerPath := "/product/contact-owner"
  const ContactRequestsPath := "/product/contact-requests"
  const LandownerRequestsPath := "/product/landowner/to/all-requests"
  const StatusChangePath := "/product/status/change"

  /** `/product/delete/${id}`: the id can be read back from the path. */
  function DeleteProductPath(id: int): (p: string)
    ensures Text.StartsWith(p, DeleteProductPrefix)
    ensures Decimal.Parse(p[|DeleteProductPrefix|..]) == Some(id)
  {
    var p := DeleteProductPrefix + Decimal.FromInt(id);
    assert p[|DeleteProductPrefix|..] == Decimal.FromInt(id);
    Decimal.ParseFromInt(id);
    p
  }

  /** The body `filterByPrice(min, max)` posts. */
  datatype PriceRange = PriceRange(min_price: int, max_price: int)

  function FilterByPriceBody(minPrice: int, maxPrice: int): (b: PriceRange)
    ensures b.min_price == minPrice && b.max_price == maxPrice
  {
    PriceRange(minPrice, maxPrice)
  }

  /** A productService call whose call site sets `Authorization: Bearer ${token}` itself
      (`addProduct`, `contactOwner`, `getContactRequests`, `getLandownerRequests`,
      `updateRequestStatus`). These clients have no 401 handler, so no reply changes the
      session, and a failure is rethrown unchanged. */
  function OwnHeaderCall<D>(s: Session, verb: string, path: string, reply: Reply<D>): (r: Call<D>)
    ensures r.effects == [Request(verb, path, Some(Bearer(GetAuthToken(s))))]
    ensures GetAuthToken(s) == None ==> r.effects == [Request(verb, path, Some("Bearer null"))]
    ensures Replay(s, r.effects) == s
    ensures reply.Resolved? ==> r.result == Fulfilled(reply.response.data)
    ensures reply.Rejected? ==> r.result == Failed(reply.error)
  {
    ExplicitCallAuthorization(s);
    Invoke(PlainApi, s, verb, path, ExplicitBearer(s), reply)
  }

  /** A productService call without its own headers (`getProducts`, the sorted lists,
      `filterByPrice`, `filterByAmenities`, `deleteProduct`, `getProductDetails`): it carries a
      bearer header only for a truthy token, and even a 401 leaves the session alone. */
  function PlainCall<D>(s: Session, verb: string, path: string, reply: Reply<D>): (r: Call<D>)
    ensures r.effects == [Request(verb, path, SentAuthorization(s, map[]))]
    ensures Replay(s, r.effects) == s
    ensures reply.Resolved? ==> r.result == Fulfilled(reply.response.data)
    ensures reply.Rejected? ==> r.result == Failed(reply.error)
  {
    Invoke(PlainApi, s, verb, path, map[], reply)
  }

  /** The body shape of the two request-list endpoints. */
  datatype RequestsBody<R> = RequestsBody(requests: seq<R>)

  /** `getContactRequests()` / `getLandownerRequests()`: resolve to `data.requests`. */
  function RequestList<R>(s: Session, path: string, reply: Reply<RequestsBody<R>>): (r: Call<seq<R>>)
    requires path == ContactRequestsPath || path == LandownerRequestsPath
    ensures r.effects == [Request("GET", path, Some(Bearer(GetAuthToken(s))))]
    ensures reply.Resolved? ==> r.result == Fulfilled(reply.response.data.requests)
    ensures reply.Rejected? ==> r.result == Failed(reply.error)
  {
    var call := OwnHeaderCall(s, "GET", path, reply);
    match call.result
    case Fulfilled(body) => Call(call.effects, Fulfilled(body.requests))
    case Failed(e) => Call(call.effects, Failed(e))
  }
}

=== FILE: session.dfy ===
/**
 * The client session: the two browser-storage entries `token` and
 * `userType`, and the storage operations the console performs on them
 * (the `getAuthToken` / `setAuthToken` / `clearAuthToken` helpers of
 * `authService` and the views' direct `localStorage` calls).
 */
module Session {
  import opened Js

  const TokenKey := "token"
  const UserTypeKey := "userType"

  /** What `localStorage` holds for the two keys the console uses. */
  datatype Session = Session(token: Option<string>, userType: Option<string>)

  const LoggedOut := Session(None, None)

  /** `localStorage.setItem(key, value)` / `localStorage.removeItem(key)`. */
  datatype StorageOp = SetItem(key: string, value: string) | RemoveItem(key: string)

  /** `localStorage.getItem(key)`; keys other than the two above are never stored. */
  function GetItem(s: Session, key: string): Option<string>
  {
    if key == TokenKey then s.token
    else if key == UserTypeKey then s.userType
    else None
  }

  /** The storage after one operation: the named key is written or removed, the other is kept. */
  function Apply(s: Session, op: StorageOp): (r: Session)
    ensures op.key in {TokenKey, UserTypeKey} ==>
      GetItem(r, op.key) == (if op.SetItem? then Some(op.value) else None)
    ensures forall k :: k != op.key ==> GetItem(r, k) == GetItem(s, k)
  {
    match op
    case SetItem(k, v) =>
      if k == TokenKey then s.(token := Some(v))
      else if k == UserTypeKey then s.(userType := Some(v))
      else s
    case RemoveItem(k) =>
      if k == TokenKey then s.(token := None)
      else if k == UserTypeKey then s.(userType := None)
      else s
  }

  /** `getAuthToken()`. */
  function GetAuthToken(s: Session): Option<string>
  {
    GetItem(s, TokenKey)
  }

  /** `setAuthToken(t)`: a later `getAuthToken()` returns `t`; `userType` is untouched. */
  function SetAuthToken(s: Session, t: string): (r: Session)
    ensures GetAuthToken(r) == Some(t)
    ensures r.userType == s.userType
  {
    Apply(s, SetItem(TokenKey, t))
  }

  /** `clearAuthToken()`: the token is gone and `userType` is untouched. */
  function ClearAuthToken(s: Session): (r: Session)
    ensures GetAuthToken(r) == None
    ensures r.userType == s.userType
  {
    Apply(s, RemoveItem(TokenKey))
  }

  /** Clearing an already cleared token changes nothing. */
  lemma ClearIdempotent(s: Session)
    ensures ClearAuthToken(ClearAuthToken(s)) == ClearAuthToken(s)
  {
  }

  /** Setting the token and then clearing it gives the same storage as clearing it directly. */
  lemma ClearAfterSet(s: Session, t: string)
    ensures ClearAuthToken(SetAuthToken(s, t)) == ClearAuthToken(s)
  {
  }
}

=== FILE: signup.dfy ===
/**
 * The sign-up form: the password and confirmation rules, the payload the
 * form posts (field renaming and the birth-date format), the error text a
 * failed sign-up shows, and the flag URL of each country option.
 */
module Signup {
  import opened Js
  import opened Text
  import opened Decimal
  import opened Session
  import opened Effects
  import opened Http
  import opened Services

  // ---- password rules ----

  /** The characters `.` in a JavaScript regular expression does not match. */
  predicate LineTerminator(c: char)
  {
    c == '\n' || c == '\r' || c == '\U{2028}' || c == '\U{2029}'
  }

  predicate IsAlphanumeric(c: char)
  {
    IsDigit(c) || IsLower(c) || IsUpper(c)
  }

  /** `/^(?=.*\d)(?=.*[a-z])(?=.*[A-Z])(?=.*[\W_]).{6,}$/`: at least six characters, none a line
      terminator, among them a digit, a lower-case letter, an upper-case letter and a character
      that is not an ASCII letter or digit (`[\W_]`). */
  predicate PasswordPattern(p: string)
  {
    && |p| >= 6
    && (forall i :: 0 <= i < |p| ==> !LineTerminator(p[i]))
    && (exists i :: 0 <= i < |p| && IsDigit(p[i]))
    && (exists i :: 0 <= i < |p| && IsLower(p[i]))
    && (exists i :: 0 <= i < |p| && IsUpper(p[i]))
    && (exists i :: 0 <= i < |p| && !IsAlphanumeric(p[i]))
  }

  /** One left-to-right scan deciding the pattern. */
  method MatchPasswordPattern(p: string) returns (ok: bool)
    ensures ok <==> PasswordPattern(p)
  {
    var digit, lower, upper, special := false, false, false, false;
    var i := 0;
    while i < |p|
      invariant 0 <= i <= |p|
      invariant forall j :: 0 <= j < i ==> !LineTerminator(p[j])
      invariant digit <==> exists j :: 0 <= j < i && IsDigit(p[j])
      invariant lower <==> exists j :: 0 <= j < i && IsLower(p[j])
      invariant upper <==> exists j :: 0 <= j < i && IsUpper(p[j])
      invariant special <==> exists j :: 0 <= j < i && !IsAlphanumeric(p[j])
    {
      var c := p[i];
      if LineTerminator(c) {
        return false;
      }
      digit := digit || IsDigit(c);
      lower := lower || IsLower(c);
      upper := upper || IsUpper(c);
      special := special || !IsAlphanumeric(c);
      i := i + 1;
    }
    ok := |p| >= 6 && digit && lower && upper && special;
  }

  const PasswordRequiredText := "Please input your password!"
  const PasswordShortText := "Password must be at least 6 characters!"
  const PasswordPatternText := "Password must contain uppercase, lowercase, number, and special character!"

  /** The messages under the password field. The length and pattern rules are not `required`
      rules, so an empty value is reported only as missing. */
  function PasswordErrors(p: string): (errs: seq<string>)
    ensures errs == [] <==> PasswordPattern(p)
    ensures p == "" ==> errs == [PasswordRequiredText]
    ensures p != "" ==> (PasswordShortText in errs <==> |p| < 6)
    ensures p != "" ==> (PasswordPatternText in errs <==> !PasswordPattern(p))
  {
    if p == "" then [PasswordRequiredText]
    else (if |p| < 6 then [PasswordShortText] else []) + (if PasswordPattern(p) then [] else [PasswordPatternText])
  }

  /** The pattern already demands six characters, so the minimum-length rule never adds a
      message of its own: whenever it fails, the pattern rule fails too. */
  lemma LengthRuleSubsumed(p: string)
    ensures PasswordShortText in PasswordErrors(p) ==> PasswordPatternText in PasswordErrors(p)
  {
  }

  const ConfirmRequiredText := "Please confirm your password!"
  const MismatchText := "Passwords do not match!"

  /** The messages under the confirmation field, given the password field's current value. */
  function ConfirmErrors(password: Option<string>, value: Option<string>): (errs: seq<string>)
    ensures !Truthy(value) ==> errs == [ConfirmRequiredText]
    ensures Truthy(value) && password != value ==> errs == [MismatchText]
    ensures MismatchText in errs <==> Truthy(value) && password != value
    ensures |errs| <= 1
  {
    if !Truthy(value) then [ConfirmRequiredText]
    else if password != value then [MismatchText]
    else []
  }

  /** The confirmation is accepted exactly when it is non-empty and equals the password. */
  lemma ConfirmAcceptedIff(password: Option<string>, value: Option<string>)
    ensures ConfirmErrors(password, value) == [] <==> Truthy(value) && value == password
  {
  }

  // ---- the payload ----

  /** A picked birth date (a dayjs value). */
  datatype Date = Date(year: nat, month: nat, day: nat)

  predicate Formattable(d: Date)
  {
    d.year < 10000 && 1 <= d.month <= 12 && 1 <= d.day <= 31
  }

  /** One zero-padded field of the format (`YYYY`, `MM`, `DD`): digits denoting the number,
      exactly `width` of them when the number fits. */
  function Field(n: nat, width: nat): (r: string)
    requires width >= 1
    ensures AllDigits(r)
    ensures n < Pow10(width) ==> |r| == width
  {
    PaddedValue(FromNat(n), width);
    if n < Pow10(width) then FromNatLength(n, width); PadZeros(FromNat(n), width)
    else PadZeros(FromNat(n), width)
  }

  lemma FieldValue(n: nat, width: nat)
    requires width >= 1
    ensures ValueOf(Field(n, width)) == n
  {
    PaddedValue(FromNat(n), width);
    ValueOfFromNat(n);
  }

  /** `format("YYYY-MM-DD")`. */
  function FormatDate(d: Date): (t: string)
    ensures Formattable(d) ==> |t| == 10 && t[4] == '-' && t[7] == '-'
  {
    Pow10Small();
    var y, m, dd := Field(d.year, 4), Field(d.month, 2), Field(d.day, 2);
    if Formattable(d) then SplitDate(y, m, dd); y + "-" + m + "-" + dd
    else y + "-" + m + "-" + dd
  }

  /** Where the three fields sit in a formatted date. */
  lemma SplitDate(y: string, m: string, dd: string)
    requires |y| == 4 && |m| == 2 && |dd| == 2
    ensures var t := y + "-" + m + "-" + dd;
      |t| == 10 && t[4] == '-' && t[7] == '-' && t[..4] == y && t[5..7] == m && t[8..] == dd
  {
    var t := y + "-" + m + "-" + dd;
    assert t[4] == "-"[0];
    assert t[7] == "-"[0];
  }

  function Pow10(k: nat): (p: nat)
    ensures p >= 1
  {
    if k == 0 then 1 else 10 * Pow10(k - 1)
  }

  lemma Pow10Small()
    ensures Pow10(2) == 100 && Pow10(4) == 10000
  {
    assert Pow10(1) == 10;
    assert Pow10(3) == 1000;
  }

  lemma {:induction false} FromNatLength(n: nat, k: nat)
    requires k >= 1 && n < Pow10(k)
    ensures |FromNat(n)| <= k
    decreases k
  {
    if n >= 10 {
      assert k >= 2;
      FromNatLength(n / 10, k - 1);
    }
  }

  /** A leading zero does not change the number a run of digits denotes. */
  lemma {:induction false} LeadingZero(s: string)
    requires AllDigits(s)
    ensures AllDigits("0" + s) && ValueOf("0" + s) == ValueOf(s)
    decreases |s|
  {
    if s != "" {
      var z := "0" + s;
      assert z[..|z| - 1] == "0" + s[..|s| - 1];
      LeadingZero(s[..|s| - 1]);
    }
  }

  lemma {:induction false} PaddedValue(s: string, width: nat)
    requires AllDigits(s)
    ensures AllDigits(PadZeros(s, width)) && ValueOf(PadZeros(s, width)) == ValueOf(s)
  {
    if |s| < width {
      ZerosValue(width - |s|, s);
    }
  }

  /** Leading zeros change neither the digits-only shape nor the value. */
  lemma {:induction false} ZerosValue(k: nat, s: string)
    requires AllDigits(s)
    ensures AllDigits(Zeros(k) + s) && ValueOf(Zeros(k) + s) == ValueOf(s)
  {
    if k > 0 {
      assert Zeros(k) + s == "0" + (Zeros(k - 1) + s);
      ZerosValue(k - 1, s);
      LeadingZero(Zeros(k - 1) + s);
    } else {
      assert Zeros(k) + s == s;
    }
  }

  /** Reads "YYYY-MM-DD" back; `None` for any other text, including the empty birth date. */
  function ParseDate(t: string): Option<Date>
  {
    if |t| == 10 && t[4] == '-' && t[7] == '-' && AllDigits(t[..4]) && AllDigits(t[5..7]) && AllDigits(t[8..])
    then Some(Date(ValueOf(t[..4]), ValueOf(t[5..7]), ValueOf(t[8..])))
    else None
  }

  /** The formatted date reads back as the date picked. */
  lemma ParseFormatDate(d: Date)
    requires Formattable(d)
    ensures ParseDate(FormatDate(d)) == Some(d)
  {
    Pow10Small();
    var y, m, dd := Field(d.year, 4), Field(d.month, 2), Field(d.day, 2);
    SplitDate(y, m, dd);
    FieldValue(d.year, 4);
    FieldValue(d.month, 2);
    FieldValue(d.day, 2);
  }

  /** The form's values, under the form's field names. */
  datatype SignupValues = SignupValues(
    username: string, password: string, email: string, gender: string,
    yourname: string, familyname: string, address: string,
    birthdate: Option<Date>, country: string, usertype: string)

  /** The body posted to /auth/signup, under the server's field names. */
  datatype SignupPayload = SignupPayload(
    username: string, password: string, email: string, gender: string,
    givenName: string, familyName: string, address: string,
    birthdate: string, country: string, userType: string)

  /** `userData`: the form's values renamed, the birth date formatted or "" when none was picked. */
  function Payload(v: SignupValues): (p: SignupPayload)
    ensures p.givenName == v.yourname && p.familyName == v.familyname && p.userType == v.usertype
    ensures v.birthdate.None? <==> p.birthdate == ""
  {
    SignupPayload(v.username, v.password, v.email, v.gender, v.yourname, v.familyname, v.address,
                  match v.birthdate case None => "" case Some(d) => FormatDate(d),
                  v.country, v.usertype)
  }

  /** The server-side reading of the payload back into the form's terms. */
  function ValuesOf(p: SignupPayload): SignupValues
  {
    SignupValues(p.username, p.password, p.email, p.gender, p.givenName, p.familyName, p.address,
                 ParseDate(p.birthdate), p.country, p.userType)
  }

  /** Nothing the user entered is lost on the way to the server. */
  lemma PayloadRoundTrip(v: SignupValues)
    requires v.birthdate.Some? ==> Formattable(v.birthdate.value)
    ensures ValuesOf(Payload(v)) == v
  {
    if v.birthdate.Some? {
      ParseFormatDate(v.birthdate.value);
    }
  }

  // ---- submitting ----

  const DefaultSignupError := "User already exists"
  const UnexpectedText := "An unexpected error occurred."

  /** What the catch block receives: an `Error` (every axios failure is one) or anything else. */
  datatype Thrown = ThrownError(error: HttpError) | ThrownValue

  /** The catch block's message: the server's `error` text, "User already exists" when there is
      none (a network failure included), and the generic text for a non-`Error` value. */
  function SignupErrorText(t: Thrown): (msg: string)
    ensures t.ThrownError? ==> msg == Or(t.error.serverError, DefaultSignupError)
    ensures t.ThrownValue? ==> msg == UnexpectedText
  {
    match t
    case ThrownError(e) => Or(e.serverError, DefaultSignupError)
    case ThrownValue => UnexpectedText
  }

  /** The sign-up response body. */
  datatype SignupReply = SignupReply(message: Option<string>)

  /** What `${response.message}` prints: the text, or "undefined" for a missing property. */
  function ShowMessage(m: Option<string>): (r: string)
    ensures m.Some? ==> r == m.value
    ensures m.None? ==> r == "undefined"
  {
    match m
    case None => "undefined"
    case Some(t) => t
  }

  /** `onFinish(values)`: spinner on, post the sign-up, then a success notice and /login, or the
      error notice; spinner off in every case. */
  function OnFinish(s: Session, reply: Reply<SignupReply>): (effs: seq<Effect>)
    ensures |effs| >= 3 && effs[0] == Loading(true) && effs[|effs| - 1] == Loading(false)
    ensures effs[1] == Request("POST", SignupPath, SentAuthorization(s, map[]))
    ensures Navigate(LoginPath) in effs <==> reply.Resolved?
    ensures reply.Resolved? ==> Notice(Success, "Signup successful: " + ShowMessage(reply.response.data.message)) in effs
    ensures reply.Rejected? ==> Notice(Error, SignupErrorText(ThrownError(reply.error))) in effs
    ensures reply.Rejected? && !IsUnauthorized(reply.error) ==> Replay(s, effs) == s
    ensures reply.Resolved? ==> Replay(s, effs) == s
  {
    var call := SignUp(s, reply);
    var outcome := match call.result
      case Fulfilled(body) => [Notice(Success, "Signup successful: " + ShowMessage(body.message)), Navigate(LoginPath)]
      case Failed(e) => [Notice(Error, SignupErrorText(ThrownError(e)))];
    var effs := [Loading(true)] + call.effects + outcome + [Loading(false)];
    assert effs[1] == call.effects[0];
    assert Navigate(LoginPath) !in call.effects by {
      if !(reply.Rejected? && IsUnauthorized(reply.error)) {
        assert call.effects == [call.effects[0]];
      } else {
        assert call.effects == [call.effects[0]] + Intercept(AuthApi, reply);
      }
    }
    if !(reply.Rejected? && IsUnauthorized(reply.error)) then
      ReplayWithoutStorage(s, effs);
      effs
    else
      effs
  }

  /** An HTTP failure shows the generic text only when the server sent that very text, and one without server text shows the default. */
  lemma HttpFailureText(e: HttpError)
    ensures SignupErrorText(ThrownError(e)) == UnexpectedText ==> e.serverError == Some(UnexpectedText)
    ensures !Truthy(e.serverError) ==> SignupErrorText(ThrownError(e)) == DefaultSignupError
  {
  }

  // ---- country options ----

  const FlagPrefix := "https://flagcdn.com/w40/"
  const FlagSuffix := ".png"

  /** The flag image of a country option (sign-up and add-property forms). */
  function FlagUrl(code: string): (u: string)
    ensures |u| == |FlagPrefix| + |code| + |FlagSuffix|
    ensures FlagPrefix <= u
    ensures u[|FlagPrefix|..|u| - |FlagSuffix|] == ToLower(code)
    ensures u[|u| - |FlagSuffix|..] == FlagSuffix
  {
    FlagPrefix + ToLower(code) + FlagSuffix
  }

  /** The URL ignores the code's letter case and tells lower-cased codes apart. */
  lemma FlagUrlCaseless(a: string, b: string)
    ensures FlagUrl(a) == FlagUrl(ToLower(a))
    ensures FlagUrl(a) == FlagUrl(b) <==> ToLower(a) == ToLower(b)
  {
    ToLowerIdempotent(a);
    if FlagUrl(a) == FlagUrl(b) {
      var u := FlagUrl(a);
      assert u[|FlagPrefix|..|u| - |FlagSuffix|] == ToLower(a);
      assert FlagUrl(b)[|FlagPrefix|..|u| - |FlagSuffix|] == ToLower(b);
    }
  }
}

=== FILE: text.dfy ===
/**
 * String helpers used by the views: ASCII lower-casing (`toLowerCase`),
 * substring search (`includes`), prefix test (`startsWith`) and the
 * "first k characters plus an ellipsis" truncation.
 */
module Text {

  predicate IsUpper(c: char) { 'A' <= c <= 'Z' }
  predicate IsLower(c: char) { 'a' <= c <= 'z' }
  predicate IsDigit(c: char) { '0' <= c <= '9' }

  /** Lower-cases one character; only the ASCII letters A-Z are changed. */
  function LowerChar(c: char): (r: char)
    ensures !IsUpper(r)
    ensures !IsUpper(c) ==> r == c
  {
    if IsUpper(c) then (c as int + 32) as char else c
  }

  /** `s.toLowerCase()` restricted to ASCII letters. */
  function ToLower(s: string): (r: string)
    ensures |r| == |s|
    ensures forall i :: 0 <= i < |s| ==> r[i] == LowerChar(s[i])
  {
    seq(|s|, i requires 0 <= i < |s| => LowerChar(s[i]))
  }

  /** Lower-casing twice is lower-casing once. */
  lemma ToLowerIdempotent(s: string)
    ensures ToLower(ToLower(s)) == ToLower(s)
  {
  }

  /** `needle` occurs in `hay` starting at position `i`. */
  predicate OccursAt(needle: string, hay: string, i: int)
  {
    0 <= i <= |hay| - |needle| && hay[i..i + |needle|] == needle
  }

  /** `needle` occurs in `hay` somewhere (the reference meaning of `includes`). */
  ghost predicate Occurs(needle: string, hay: string)
  {
    exists i :: OccursAt(needle, hay, i)
  }

  /** `hay.includes(needle)`, computed by scanning from the left. */
  function Includes(hay: string, needle: string): bool
    decreases |hay|
  {
    if needle <= hay then true
    else if |hay| <= |needle| then false
    else Includes(hay[1..], needle)
  }

  /** The scan finds the needle exactly when it occurs somewhere. */
  lemma {:induction false} IncludesIffOccurs(hay: string, needle: string)
    ensures Includes(hay, needle) <==> Occurs(needle, hay)
    decreases |hay|
  {
    if needle <= hay {
      assert OccursAt(needle, hay, 0);
    } else if |hay| <= |needle| {
      assert forall i :: !OccursAt(needle, hay, i);
    } else {
      IncludesIffOccurs(hay[1..], needle);
      if Occurs(needle, hay) {
        var i :| OccursAt(needle, hay, i);
        assert i != 0;
        assert hay[1..][i - 1..i - 1 + |needle|] == hay[i..i + |needle|];
        assert OccursAt(needle, hay[1..], i - 1);
      }
      if Occurs(needle, hay[1..]) {
        var j :| OccursAt(needle, hay[1..], j);
        assert hay[j + 1..j + 1 + |needle|] == hay[1..][j..j + |needle|];
        assert OccursAt(needle, hay, j + 1);
      }
    }
  }

  /** The empty string is included in every string (so an empty filter keeps everything). */
  lemma IncludesEmpty(hay: string)
    ensures Includes(hay, "")
  {
  }

  /** `s.startsWith(prefix)`. */
  predicate StartsWith(s: string, prefix: string)
  {
    prefix <= s
  }

  /** `s.length > limit ? s.slice(0, keep) + "..." : s`. */
  function Truncate(s: string, limit: nat, keep: nat): (r: string)
    requires keep <= limit
    ensures |s| <= limit ==> r == s
    ensures |s| > limit ==> |r| == keep + 3 && r[..keep] == s[..keep] && r[keep..] == "..."
  {
    if |s| > limit then s[..keep] + "..." else s
  }
}

=== FILE: upload.dfy ===
/**
 * The image upload controls: the MIME check both upload controls run
 * before accepting a file, the single-image amenity modal (keep the last
 * file, preview, remove, submit) and the generic image uploader.
 */
module Upload {
  import opened Js
  import opened Text
  import opened Session
  import opened Effects
  import opened Http
  import opened Services
  import opened FormData

  // ---- MIME check ----

  /** What `beforeUpload` returns: accept the file, or `Upload.LIST_IGNORE`. */
  datatype Verdict = Accept | ListIgnore

  datatype Check = Check(verdict: Verdict, effects: seq<Effect>)

  const ModalRejectText := "Please upload a valid image file!"
  const UploaderRejectText := "Please upload an image file!"

  /** `beforeUpload(file)`: a file whose MIME type starts with "image/" is accepted silently; any
      other file is left out of the list with the control's error message. */
  function BeforeUpload(file: FileObj, rejectText: string): (c: Check)
    ensures c.verdict == Accept <==> StartsWith(file.mime, "image/")
    ensures c.verdict == Accept ==> c.effects == []
    ensures c.verdict == ListIgnore ==> c.effects == [Notice(Error, rejectText)]
  {
    if StartsWith(file.mime, "image/") then Check(Accept, []) else Check(ListIgnore, [Notice(Error, rejectText)])
  }

  /** Examples of the iff in `BeforeUpload`, kept as documentation: the check is case-sensitive
      and wants the slash, so "IMAGE/PNG", "image" and "" are refused. */
  lemma MimeCheckExamples(name: string)
    ensures BeforeUpload(FileObj(name, "image/png"), ModalRejectText).verdict == Accept
    ensures BeforeUpload(FileObj(name, "image/svg+xml"), ModalRejectText).verdict == Accept
    ensures BeforeUpload(FileObj(name, "IMAGE/PNG"), ModalRejectText).verdict == ListIgnore
    ensures BeforeUpload(FileObj(name, "image"), ModalRejectText).verdict == ListIgnore
    ensures BeforeUpload(FileObj(name, ""), ModalRejectText).verdict == ListIgnore
    ensures BeforeUpload(FileObj(name, "application/pdf"), ModalRejectText).verdict == ListIgnore
  {
    assert "image/" <= "image/png";
    assert "image/" <= "image/svg+xml";
    assert "IMAGE/PNG"[0] != "image/"[0];
    assert "application/pdf"[0] != "image/"[0];
  }

  // ---- the amenity modal ----

  datatype ModalState = ModalState(files: seq<UploadFile>, preview: Option<string>, loading: bool)

  /** `fileList.slice(-1)`: the most recent entry only. */
  function KeepLast(files: seq<UploadFile>): (r: seq<UploadFile>)
    ensures |r| <= 1
    ensures r == [] <==> files == []
    ensures r != [] ==> r == [files[|files| - 1]]
  {
    if files == [] then [] else files[|files| - 1..]
  }

  /** Keeping the last entry twice is keeping it once, and the newest pick always wins. */
  lemma KeepLastLaws(files: seq<UploadFile>, f: UploadFile)
    ensures KeepLast(KeepLast(files)) == KeepLast(files)
    ensures KeepLast(files + [f]) == [f]
  {
    assert (files + [f])[|files + [f]| - 1] == f;
    if files != [] {
      assert KeepLast(files)[|KeepLast(files)| - 1] == files[|files| - 1];
    }
  }

  /** `handleFileChange({ fileList })`, with `objectUrl` standing for `URL.createObjectURL`. The
      list becomes its last entry; the preview shows that entry's file, or is cleared for an
      empty list. An entry without a file makes `createObjectURL` throw after the list was set,
      so the preview is left as it was. */
  function HandleFileChange(st: ModalState, fileList: seq<UploadFile>, objectUrl: FileObj -> string): (r: ModalState)
    ensures r.files == KeepLast(fileList) && r.loading == st.loading
    ensures fileList == [] ==> r.preview == None
    ensures fileList != [] && fileList[|fileList| - 1].originFileObj.Some? ==>
      r.preview == Some(objectUrl(fileList[|fileList| - 1].originFileObj.value))
    ensures fileList != [] && fileList[|fileList| - 1].originFileObj.None? ==> r.preview == st.preview
  {
    var latest := KeepLast(fileList);
    if latest == [] then st.(files := latest, preview := None)
    else match latest[0].originFileObj
      case Some(o) => st.(files := latest, preview := Some(objectUrl(o)))
      case None => st.(files := latest)
  }

  /** `handleRemove()`: no file and no preview. */
  function HandleRemove(st: ModalState): (r: ModalState)
    ensures r.files == [] && r.preview == None && r.loading == st.loading
  {
    st.(files := [], preview := None)
  }

  /** Removing the image is the same as the control reporting an empty list. */
  lemma RemoveIsEmptyChange(st: ModalState, objectUrl: FileObj -> string)
    ensures HandleRemove(st) == HandleFileChange(st, [], objectUrl)
  {
  }

  const AddAmenityPath := "/landowner/add-amenities"
  const NoImageText := "Please upload an image file."
  const AmenityAddedText := "Amenity added successfully!"
  const AmenityFailedText := "Failed to add amenity."

  /** What a submission did: effects in order, the modal state after it, and the entries posted. */
  datatype Submission = Submission(effects: seq<Effect>, state: ModalState, posted: Option<seq<Part>>)

  /** The entries the modal posts: the name, then each listed file under "files". */
  function AmenityParts(name: string, files: seq<UploadFile>): (parts: seq<Part>)
    ensures |parts| == |files| + 1 && parts[0] == TextPart("name", name)
    ensures forall i :: 0 <= i < |files| ==> parts[i + 1] == AppendFile("files", files[i])
  {
    [TextPart("name", name)] + seq(|files|, i requires 0 <= i < |files| => AppendFile("files", files[i]))
  }

  /** `handleSubmit(values)`: without a file, an error and nothing posted. Otherwise the spinner
      is on while the entries are posted (`amenityService` attaches the bearer token only when
      one is stored and has no 401 handler); success clears the form, the file and the preview
      and calls `onSuccess` then `onClose`; failure keeps everything for another try. */
  function HandleSubmit<D>(s: Session, st: ModalState, name: string, reply: Reply<D>): (r: Submission)
    ensures st.files == [] ==> r == Submission([Notice(Error, NoImageText)], st, None)
    ensures st.files != [] ==>
      && r.posted == Some(AmenityParts(name, st.files))
      && |r.effects| >= 4
      && r.effects[0] == Loading(true)
      && r.effects[1] == Request("POST", AddAmenityPath, SentAuthorization(s, map[]))
      && r.effects[|r.effects| - 1] == Loading(false)
      && !r.state.loading
    ensures st.files != [] && reply.Resolved? ==>
      r.state.files == [] && r.state.preview == None &&
      r.effects[2..] == [Notice(Success, AmenityAddedText), ResetForm, Callback("onSuccess"), Callback("onClose"), Loading(false)]
    ensures st.files != [] && reply.Rejected? ==>
      r.state == st.(loading := false) && r.effects[2..] == [Notice(Error, AmenityFailedText), Loading(false)]
    ensures Replay(s, r.effects) == s
  {
    if st.files == [] then
      ReplayWithoutStorage(s, [Notice(Error, NoImageText)]);
      Submission([Notice(Error, NoImageText)], st, None)
    else
      var call := PlainCall(s, "POST", AddAmenityPath, reply);
      var after := if reply.Resolved? then [Notice(Success, AmenityAddedText), ResetForm, Callback("onSuccess"), Callback("onClose")]
                   else [Notice(Error, AmenityFailedText)];
      var effs := [Loading(true)] + call.effects + after + [Loading(false)];
      ReplayWithoutStorage(s, effs);
      var next := if reply.Resolved? then ModalState([], None, false) else st.(loading := false);
      Submission(effs, next, Some(AmenityParts(name, st.files)))
  }

  /** After a file change the modal posts at most one file. */
  lemma ModalPostsOneFile<D>(s: Session, st: ModalState, fileList: seq<UploadFile>, objectUrl: FileObj -> string,
                             name: string, reply: Reply<D>)
    requires fileList != []
    ensures var r := HandleSubmit(s, HandleFileChange(st, fileList, objectUrl), name, reply);
      r.posted == Some([TextPart("name", name), AppendFile("files", fileList[|fileList| - 1])])
  {
    var st' := HandleFileChange(st, fileList, objectUrl);
    assert st'.files == [fileList[|fileList| - 1]];
    var parts := AmenityParts(name, st'.files);
    assert parts == [TextPart("name", name), AppendFile("files", fileList[|fileList| - 1])];
  }

  // ---- the generic image uploader ----

  /** The uploader's state: the list it shows. */
  datatype Uploader = Uploader(files: seq<UploadFile>)

  /** The "Upload" tile is drawn only while the stored list is empty. */
  predicate UploaderTileShown(u: Uploader)
  {
    |u.files| < 1
  }

  /** `onChange({ fileList })`: the control's list replaces the stored one as it comes, so the
      tile is back exactly when the control reported an empty list, whatever was stored before. */
  function UploaderChange(u: Uploader, newList: seq<UploadFile>): (r: Uploader)
    ensures r.files == newList
    ensures UploaderTileShown(r) <==> newList == []
  {
    Uploader(newList)
  }

  /** A change never depends on what was stored before. */
  lemma UploaderTileAfterChange(u: Uploader, v: Uploader, newList: seq<UploadFile>)
    ensures UploaderChange(u, newList) == UploaderChange(v, newList)
    ensures UploaderTileShown(UploaderChange(u, newList)) <==> newList == []
  {
  }

  /** `onPreview(file)`: a non-empty `url` is shown as is; otherwise the file is read as a data URL
      (`readDataUrl`). Without a file to read the preview fails (`None`). */
  function PreviewSource(f: UploadFile, readDataUrl: FileObj -> string): (r: Option<string>)
    ensures Truthy(f.url) ==> r == f.url
    ensures !Truthy(f.url) && f.originFileObj.Some? ==> r == Some(readDataUrl(f.originFileObj.value))
    ensures r.None? <==> !Truthy(f.url) && f.originFileObj.None?
  {
    if Truthy(f.url) then f.url
    else match f.originFileObj
      case Some(o) => Some(readDataUrl(o))
      case None => None
  }
}
